=== FILE: README.md ===
# jsMultiSelect predicate merging, in Dafny

jsMultiSelect folds many single-row equality lookups against one table into fewer
selects. This project models that optimiser and proves its merging sound. It has three
layers, one module each:

- **`Comparators`** (`comparators.dfy`) covers `MultiCompare` and `OptimizedMultiCompare`.
  - A comparator means "field_i = value_i for every i".
  - At most one position can grow into an IN-list.
  - `joinWith` absorbs another *simple* comparator when the two differ in at most one
    position. Once multi-valued, that position must be the IN-list position.
  - The pair `multiValPosition` / `multiValArray` becomes `Mode = Simple | MultiValue(position, valueList)`.
  - `joinWith` mutates and answers a boolean; `JoinWith` returns `Option`, and `None` is `false`.
- **`Selects`** (`selects.dfy`) covers `Select`: its table and alias, manual filter,
  static filter, optimised comparator and `isOptimized` flag.
  - It has the setters and the two filter getters.
  - `canAppendTo` and `optimizedAppendTo` merge through the comparator join.
  - `appendTo` is the OR-merging fallback.
- **`Grouping`** (`grouping.dfy`) covers `groupSelectStep` and `groupSelect`.
  - The pass is a left fold of `Insert` over the input.
  - Its state holds the buckets, each a representative plus the index of its first input.
  - It also records which bucket each input went to, so soundness can be stated.

Supporting modules:
- `Wrappers` holds `Option`.
- `Expressions` is the abstract filter language: `Mcmp | Eq | IsIn | And | Or | True | Manual`.
  - `Eval` gives each filter its meaning on a row (a map from field to value).
  - A `Manual(id)` filter means whatever a `ManualMeaning` parameter says.

Values are a generic type `V` whose equality stands for JavaScript `===`, assumed to be an equivalence relation (see `Comparators.HasValue` under "## Left out").

`src/multiSelect.js` repeats the logic of `src/jsMultiSelect.js`, so the table cites
`src/jsMultiSelect.js` only. The corresponding `src/multiSelect.js` lines are:

| jsMultiSelect.js | multiSelect.js |
|---|---|
| `OptimizedMultiCompare` 75-80 | 62-67 |
| `hasValue` 161-166 | 90-95 |
| `joinWith` 177-218 | 102-143 |
| `getFilter` 130-141 | 154-164 |
| `getPartialFilter` 329-338 | 202-210 |
| `Select.getFilter` 345-350 | 218-223 |
| `where` 462-466 | 233-237 |
| `staticFilter` 473-476 | 243-246 |
| `multiCompare` 485-489 | 255-259 |
| `from` 359-365 | 282-288 |
| `intoTable` 499-502 | 296-299 |
| `canAppendTo` 389-391 | 332-334 |
| `optimizedAppendTo` 401-414 | 343-356 |
| `appendTo` 423-446 | 364-387 |
| `groupSelectStep` 526-535 | 397-406 |
| `groupSelect` 542-548 | 413-419 |

## Model

| member | source | states |
|---|---|---|
| Comparators.FromMultiCompare | src/jsMultiSelect.js:75-80 | a new optimised comparator copies the fields and values of its `MultiCompare`, starts simple, and satisfies the comparator invariant |
| Comparators.IsMultiValue | src/jsMultiSelect.js:120-122 | a comparator is multi-valued exactly when it has an IN-list position; `JoinWith` refuses every multi-valued `other` on this test |
| Comparators.SameFieldsAs | src/jsMultiSelect.js:149-151 | equality of the field lists; `JoinWith` refuses exactly when it fails, the other side is multi-valued, or the scan rejects |
| Comparators.HasValue | src/jsMultiSelect.js:161-166 | IN-list membership at the multi-value position, equality elsewhere; `Admits`, the reference meaning of a comparator, is this test at every position |
| Comparators.GetFilter | src/jsMultiSelect.js:130-141 | the intended filter, one multi-field equality while simple, otherwise an IN-list at the position and equalities elsewhere; `FilterMeaning` gives its rows |
| Comparators.FilterMeaning | src/jsMultiSelect.js:130-141 | the filter of a comparator selects exactly the rows whose projection on its fields the comparator admits: the IN-list at the multi-value position, equality at every other field |
| Comparators.SimpleAdmitsOnlyItsValues | src/jsMultiSelect.js:130-133 | a simple comparator matches exactly one value tuple, its own values |
| Comparators.GetFilterAsWritten | src/jsMultiSelect.js:130-141 | the filter the code builds is always a conjunction with one conjunct per field |
| Comparators.GetFilterAsWrittenDiffers | src/jsMultiSelect.js:131-133 | for the simple comparator id = 7, the code builds `And([Eq(id, 7)])` where the multi-field equality `Mcmp([id], [7])` was meant |
| Comparators.GetFilterAsWrittenSameRows | src/jsMultiSelect.js:130-141 | the filter as written and the intended filter select the same rows |
| Comparators.Scan | src/jsMultiSelect.js:187-207 | the difference scan rejects exactly when a simple comparator differs at two positions, or a multi-valued one differs away from its IN-list position; otherwise it reports no difference or the single differing position |
| Comparators.JoinWith | src/jsMultiSelect.js:177-218 | refuses exactly when the fields differ, `other` is multi-valued, or the scan rejects; never changes fields or values; an agreeing `other` leaves it unchanged; a simple one differing only at `p` becomes multi-valued at `p` with `[values[p], other.values[p]]`; a multi-valued one keeps its position and either keeps its IN-list or appends `other`'s value there |
| Comparators.JoinAdmittedIsIdentity | src/jsMultiSelect.js:208-210 | joining a simple comparator whose values are already admitted is a no-op; in particular joining a copy of a simple comparator is idempotent |
| Comparators.JoinMultiRefusesCopy | src/jsMultiSelect.js:184-186 | a multi-valued comparator refuses a copy of itself, since the joined side must be simple |
| Comparators.JoinPreservesValid | src/jsMultiSelect.js:211-216 | the join keeps the invariant: a valid position, at least two IN-list values, no duplicates, and the original value in the IN-list |
| Comparators.JoinSound | src/jsMultiSelect.js:170-218 | after a successful join, the matched tuples are exactly the old ones plus `other`'s tuple |
| Selects.NewSelect | src/jsMultiSelect.js:240-266 | a fresh select: no table, alias, filters or comparator, not optimised; `NewSelectLookup` shows how binding it yields a lookup |
| Selects.NewSelectLookup | src/jsMultiSelect.js:240-266 | a fresh select bound with `from` takes the table name as alias, and with a comparator attached it is optimised and driven by that comparator alone |
| Selects.GetPartialFilter | src/jsMultiSelect.js:329-338 | the manual filter when set, else the comparator's filter; `PureMatchesAdmitted` and `Where` pin both cases |
| Selects.PureMatchesAdmitted | src/jsMultiSelect.js:329-338 | a select with no manual filter fetches exactly the rows its comparator admits |
| Selects.GetFilter | src/jsMultiSelect.js:345-350 | without a static filter the overall filter is the partial filter; `GetFilterMeaning` gives its rows with one |
| Selects.GetFilterMeaning | src/jsMultiSelect.js:345-350 | a row passes the overall filter iff it passes the static filter (when set) and the partial filter |
| Selects.From | src/jsMultiSelect.js:359-365 | binds the table; the alias becomes the table name only when it was unset; nothing else changes |
| Selects.IntoTable | src/jsMultiSelect.js:499-502 | sets the alias and nothing else |
| Selects.Where | src/jsMultiSelect.js:462-466 | the manual filter becomes the partial filter and the select leaves comparator merging; nothing else changes |
| Selects.StaticFilter | src/jsMultiSelect.js:473-476 | sets the static filter without changing the partial filter or anything else |
| Selects.SetMultiCompare | src/jsMultiSelect.js:485-489 | attaches a fresh simple comparator holding exactly the fields and values of `mc` and marks the select optimised, keeping any manual filter |
| Selects.SetMultiCompareMatchesOneTuple | src/jsMultiSelect.js:485-489 | a select given only a comparator fetches exactly the rows holding that comparator's values |
| Selects.CanAppendTo | src/jsMultiSelect.js:389-391 | same table and same alias; `AppendTo` fails exactly when it does not hold |
| Selects.CanAppendToEquivalence | src/jsMultiSelect.js:389-391 | sharing a target is reflexive, symmetric and transitive |
| Selects.OptimizedAppendTo | src/jsMultiSelect.js:401-414 | fails exactly when table or alias differ, either comparator is missing, or the comparator join refuses; on success it holds the joined comparator, clears the manual filter, and keeps target, static filter and flag |
| Selects.OptimizedAppendSound | src/jsMultiSelect.js:394-414 | for selects driven by their comparators alone, the partial filter after a successful optimised append fetches exactly the union of the two selects' partial-filter rows |
| Selects.AppendTo | src/jsMultiSelect.js:423-446 | fails exactly when table or alias differ; otherwise, in the source's case order: a true partial filter leaves the select unchanged; else the other's true filter is adopted, dropping comparator and flag; else an identical filter leaves it unchanged; else the filter becomes `Or(own, other's)`, dropping comparator and flag |
| Selects.AppendSound | src/jsMultiSelect.js:417-446 | the partial filter after a successful OR-append fetches exactly the union of the two selects' partial-filter rows |
| Grouping.Join | src/jsMultiSelect.js:530 | `g[joinMethod](select)`: the OR-append succeeds exactly on a shared table and alias; the comparator join keeps a comparator-only select comparator-only |
| Grouping.JoinSound | src/jsMultiSelect.js:530 | after a successful join of either method, the partial filter fetches exactly the union of the two selects' partial-filter rows |
| Grouping.FirstAbsorber | src/jsMultiSelect.js:530 | `_.find` returns the first representative that absorbs the select; every earlier one refused |
| Grouping.Insert | src/jsMultiSelect.js:528-533 | the select goes to the first absorbing bucket, with every earlier representative having refused it; otherwise it starts a new bucket at the end; buckets that did not absorb it are untouched |
| Grouping.InsertKeepsShape | src/jsMultiSelect.js:526-535 | one more select keeps the shape of the pass: every input owned by a bucket that started at or before it, buckets in order of their first input |
| Grouping.InsertSound | src/jsMultiSelect.js:526-535 | one more select keeps every representative's partial filter fetching exactly the partial-filter rows of the inputs in its bucket |
| Grouping.Group | src/jsMultiSelect.js:526-535 | the pass over a list has the shape above |
| Grouping.GroupSound | src/jsMultiSelect.js:526-535 | after the pass, each representative's partial filter fetches exactly the partial-filter rows of the inputs in its bucket |
| Grouping.GroupSelectStep | src/jsMultiSelect.js:526-535 | the result is no longer than the input, is non-empty for a non-empty input, and each result keeps the target and static filter of some input |
| Grouping.GroupSelectStepSound | src/jsMultiSelect.js:518-535 | when every input fits the join method, the results' partial filters together fetch exactly the rows the inputs' partial filters fetch |
| Grouping.GroupSelectStepOrder | src/jsMultiSelect.js:526-535 | one result per bucket, in order of first input, each keeping its first input's target; every input was absorbed by a result that started at or before it |
| Grouping.GroupNoJoins | src/jsMultiSelect.js:526-535 | when no select joins into an earlier one, each select starts its own bucket, unchanged |
| Grouping.GroupSelectStepNoJoins | src/jsMultiSelect.js:526-535 | when no select joins into an earlier one, `groupSelectStep` returns its input |
| Grouping.AppendStepDistinctTargets | src/jsMultiSelect.js:526-535 | with `appendTo`, selects on pairwise different tables or aliases come back unchanged |
| Grouping.WithFlag | src/jsMultiSelect.js:544 | `_.filter` by `isOptimized` keeps exactly the inputs with that flag value |
| Grouping.WithFlagConcat | src/jsMultiSelect.js:544 | `_.filter` keeps input order: filtering a concatenation concatenates the filtered parts |
| Grouping.WithFlagMultiset | src/jsMultiSelect.js:544-547 | the two filters together hold every input exactly as often as the input does |
| Grouping.WithFlagAll | src/jsMultiSelect.js:544 | when every select carries the flag, the filter returns the input and the other filter nothing |
| Grouping.WithFlagSplits | src/jsMultiSelect.js:544-547 | the two filters together have as many selects as the input |
| Grouping.SecondStageInput | src/jsMultiSelect.js:544-547 | the second stage gets no more selects than the input, at least one for a non-empty input, each keeping an input's target, and ends with every non-optimised select in input order |
| Grouping.GroupSelect | src/jsMultiSelect.js:542-548 | the result is no longer than the input, is non-empty for a non-empty input, and each result keeps the target and static filter of some input |
| Grouping.GroupSelectSound | src/jsMultiSelect.js:537-548 | if every optimised select has no manual filter, the results' partial filters together fetch exactly the rows the inputs' partial filters fetch |
| Grouping.GroupSelectFullSound | src/jsMultiSelect.js:537-548 | when moreover every input carries the same static filter, the results' overall filters (`getFilter`: static AND partial) together fetch exactly the rows the inputs' overall filters fetch |
| Grouping.GroupSelectStepFirst | src/jsMultiSelect.js:526-535 | the first result of a pass keeps the table, alias and static filter of the first input |
| Grouping.GroupSelectFirst | src/jsMultiSelect.js:542-548 | the second stage takes the first stage's results before the non-optimised selects (line 547), so the first result keeps the target and static filter of the first optimised input when there is one, otherwise of the first input |
| Grouping.AppendPassSingle | src/jsMultiSelect.js:547 | an `appendTo` pass over selects that share one table and alias leaves one bucket |
| Grouping.GroupSelectSingle | src/jsMultiSelect.js:542-548 | a non-empty list of selects sharing one table and alias merges into exactly one select |
| Grouping.OptimizedPassMerges | src/jsMultiSelect.js:526-535 | the comparator pass over lookups on one table and alias that differ only at field `p`, each with its own value, ends in one bucket holding their merge |
| Grouping.GroupSelectStepInList | src/jsMultiSelect.js:526-535 | two or more such lookups fold into one select: the first lookup, without manual filter, whose comparator has at `p` an IN-list of every key value in input order, so its filter holds `IsIn(field p, values)` |
| Grouping.GroupSelectInList | src/jsMultiSelect.js:537-548 | `groupSelect` over such optimised lookups returns that single IN-list select |

## Left out

- `columns`, `top`/`myTop` and `orderBy`/`sorting` are left out. These setters play no part in merging.
- The `require` plumbing is left out, as are `util`, jsDataSet and the deferred library.
- `MultiCompare.sameFieldsAs` (src/jsMultiSelect.js:54-56) has no member of its own. The core never calls it. The optimised comparator shares its `fields` array by reference and clones only `values` (src/jsMultiSelect.js:76, 79); as values, `SameFieldsAs` on the optimised forms gives the same answer.
- The expression library's constructors and SQL rendering are not modelled. `Expr` is an abstract datatype, and datatype equality stands in for comparing `toString()` renderings.
- `isTrue` is modelled as the `True` constructor.
- JavaScript mutation is returned values: operations return the updated select or comparator, and a failed join returns `None` with the receiver untouched.
- Lodash `_.isEqual`, `_.clone` and `_.includes` are modelled as sequence equality, value copy and sequence membership.
- Selects.GetPartialFilter: the `null` result for a select with neither a manual filter nor a comparator is excluded by the `Ready` precondition. In that case `appendTo` would fail reading `isTrue` of `null`.
- Selects.Ready also requires an attached comparator to have one value per field. The source assumes this of every `MultiCompare`.
- Selects.AppendTo and Selects.OptimizedAppendTo ignore the static filter of the select being appended, as the source does. The soundness lemmas speak about partial filters only.
- Grouping.GroupSelectSound is stated for partial filters. Static filters are not merged: a merged select keeps its representative's static filter. So when inputs on one target carry different static filters, the result is not equivalent to the inputs. Example: two optimised lookups on table `t` with ids 1 and 2 and static filters `Manual(1)` and `Manual(2)`. They merge through `optimizedAppendTo` (src/jsMultiSelect.js:401-414) into one select with static filter `Manual(1)` only. Grouping.GroupSelectFullSound states equivalence of the overall filters for the case where all inputs share one static filter.
- Grouping.GroupSelectSound assumes every optimised select has no manual filter. `where` followed by `multiCompare` leaves a manual filter on an optimised select. `optimizedAppendTo` then drops that filter on success, so without the assumption the first stage can fetch different rows than its inputs.
- Comparators.HasValue and the join lemmas treat value equality as an equivalence relation, the same test in both branches. JavaScript `===` is not reflexive on `NaN`, and `_.includes` (src/jsMultiSelect.js:165) uses SameValueZero while the other branch uses `===` (src/jsMultiSelect.js:163). So `NaN` keys are outside the model. For example, the source joins a simple comparator with value `[NaN]` to its own copy and gets the IN-list `[NaN, NaN]`, with a duplicate, where Comparators.JoinAdmittedIsIdentity and Comparators.JoinPreservesValid promise a no-op and no duplicates. And the source refuses to join `[NaN, 1]` with `[NaN, 2]` (two differences), where the model joins them with an IN-list at position 1.
- Grouping.GroupSelectStep treats the list as values, not as shared mutable objects. In the source each representative is the input object itself, mutated in place, so the caller's selects change and an object listed twice is affected by its own earlier merge. Example: `[a, b, a]`, comparators on `id` with values 1, 2, 1. The source makes `a` multi-valued when absorbing `b`, and `a.optimizedAppendTo(a)` then refuses because the other side is multi-valued, giving `[a, a]`. The model absorbs the second `a` and ends with one bucket.
- Grouping.GroupSelectStep states that each result keeps some input's target. It does not state that a result equals its first input, because the OR-append rewrites the representative's filter. Grouping.GroupNoJoins states equality for the case where nothing merges.

## Findings

| source | as written | input that shows it | evidently intended | confidence | as-written member | corrected member |
|---|---|---|---|---|---|---|
| src/jsMultiSelect.js:131 | `!this.isMultiValue` negates the method itself, which is always truthy, so the multi-field equality branch is dead and every comparator gets a conjunction with one conjunct per field | a simple comparator on field `id` with value 7 yields `and(eq(id, 7))` rather than `mcmp([id], [7])` | call `isMultiValue()`, so a simple comparator gets one multi-field equality; the rows selected are the same either way (Comparators.GetFilterAsWrittenSameRows) | high; not executed | Comparators.GetFilterAsWrittenDiffers | Comparators.FilterMeaning |

=== FILE: comparators.dfy ===
/**
 * Multi-field comparators and their optimised form.
 *
 * A `MultiCompare` states "fields[i] = values[i] for every i". An
 * `OptimizedMultiCompare` starts as a copy of one and may generalise exactly one
 * position into an IN-list by absorbing other simple comparators with `JoinWith`.
 * The JavaScript object mutates itself and answers a boolean; here a join
 * returns the updated comparator, or `None` when the source answers false and
 * leaves the receiver untouched.
 */
module Comparators {
  import opened Wrappers
  import opened Expressions

  /** "fields[i] = values[i] for every i". */
  datatype MultiCompare<V> = MultiCompare(fields: seq<Field>, values: seq<V>)

  /** Whether a comparator still compares every field with one value, or has one IN-list position. */
  datatype Mode<V> = Simple | MultiValue(position: nat, valueList: seq<V>)

  /**
   * `mode` replaces the pair multiValPosition / multiValArray of the source,
   * which are both null exactly when the comparator is simple.
   */
  datatype OptimizedMultiCompare<V> = OptimizedMultiCompare(fields: seq<Field>, values: seq<V>, mode: Mode<V>)

  /** The comparator invariant: one value per field. */
  predicate Shaped<V>(c: OptimizedMultiCompare<V>) {
    |c.values| == |c.fields|
  }

  predicate NoDuplicates<V(==)>(s: seq<V>) {
    forall i, j :: 0 <= i < j < |s| ==> s[i] != s[j]
  }

  /**
   * The invariant every comparator reachable from a `MultiCompare` keeps: once
   * multi-valued, the position is a valid index and the IN-list holds at least two
   * distinct values, among them the original value at that position.
   */
  predicate Valid<V(==)>(c: OptimizedMultiCompare<V>) {
    && Shaped(c)
    && (c.mode.MultiValue? ==>
          && c.mode.position < |c.fields|
          && |c.mode.valueList| >= 2
          && NoDuplicates(c.mode.valueList)
          && c.values[c.mode.position] in c.mode.valueList)
  }

  /** Builds the optimised form of a comparator: a copy of its values, in the simple state. */
  function FromMultiCompare<V>(mc: MultiCompare<V>): (c: OptimizedMultiCompare<V>)
    ensures c.fields == mc.fields && c.values == mc.values
    ensures c.mode.Simple?
    ensures |mc.values| == |mc.fields| ==> Valid(c)
  {
    OptimizedMultiCompare(mc.fields, mc.values, Simple)
  }

  predicate IsMultiValue<V>(c: OptimizedMultiCompare<V>) {
    c.mode.MultiValue?
  }

  predicate SameFieldsAs<V>(c: OptimizedMultiCompare<V>, other: OptimizedMultiCompare<V>) {
    c.fields == other.fields
  }

  /** Does `c` accept `value` at position `index`: the IN-list at the multi-value position, equality elsewhere. */
  predicate HasValue<V(==)>(c: OptimizedMultiCompare<V>, value: V, index: nat)
    requires index < |c.values|
  {
    if c.mode.MultiValue? && index == c.mode.position then value in c.mode.valueList
    else c.values[index] == value
  }

  /** The value tuples `c` matches: one value per field, each accepted at its position. */
  predicate Admits<V(==)>(c: OptimizedMultiCompare<V>, t: seq<V>)
    requires Shaped(c)
  {
    |t| == |c.fields| && forall i :: 0 <= i < |t| ==> HasValue(c, t[i], i)
  }

  /** The tuple of values `row` holds in `fields`. */
  function Project<V>(row: Row<V>, fields: seq<Field>): (t: seq<V>)
    ensures |t| == |fields|
    ensures forall i :: 0 <= i < |fields| ==> t[i] == row(fields[i])
  {
    if fields == [] then [] else [row(fields[0])] + Project(row, fields[1..])
  }

  /**
   * The filter expression of a comparator: one multi-field equality while simple;
   * otherwise, in field order, an IN-list at the multi-value position and an
   * equality at every other position.
   */
  function GetFilter<V>(c: OptimizedMultiCompare<V>): Expr<V>
    requires Shaped(c)
  {
    match c.mode
    case Simple => Mcmp(c.fields, c.values)
    case MultiValue(p, vs) =>
      And(seq(|c.fields|, i requires 0 <= i < |c.fields| =>
        if i == p then IsIn(c.fields[i], vs) else Eq(c.fields[i], c.values[i])))
  }

  /** The filter of a comparator selects exactly the rows whose projection the comparator admits. */
  lemma FilterMeaning<V>(c: OptimizedMultiCompare<V>, row: Row<V>, manual: ManualMeaning<V>)
    requires Shaped(c)
    ensures Eval(GetFilter(c), row, manual) <==> Admits(c, Project(row, c.fields))
  {
    var t := Project(row, c.fields);
    match c.mode
    case Simple =>
    case MultiValue(p, vs) =>
      var args := GetFilter(c).args;
      if Eval(GetFilter(c), row, manual) {
        forall i | 0 <= i < |t| ensures HasValue(c, t[i], i) {
          assert Eval(args[i], row, manual);
        }
      } else {
        var i :| 0 <= i < |args| && !Eval(args[i], row, manual);
        assert !HasValue(c, t[i], i);
      }
  }

  /** A simple comparator, such as a freshly optimised one, matches exactly the one tuple of its values. */
  lemma SimpleAdmitsOnlyItsValues<V>(c: OptimizedMultiCompare<V>, t: seq<V>)
    requires Shaped(c) && c.mode.Simple?
    ensures Admits(c, t) <==> t == c.values
  {
    if Admits(c, t) {
      forall i | 0 <= i < |t| ensures t[i] == c.values[i] {
        assert HasValue(c, t[i], i);
      }
    }
  }

  /**
   * The filter as the source computes it. Its guard for the multi-field equality
   * tests the method `isMultiValue` itself rather than its result, so that branch
   * is never taken: every comparator gets the conjunction, where a simple one has
   * no IN-list position and so an equality at every field.
   */
  function GetFilterAsWritten<V>(c: OptimizedMultiCompare<V>): (e: Expr<V>)
    requires Shaped(c)
    ensures e.And? && |e.args| == |c.fields|
  {
    And(seq(|c.fields|, i requires 0 <= i < |c.fields| =>
      if c.mode.MultiValue? && i == c.mode.position then IsIn(c.fields[i], c.mode.valueList)
      else Eq(c.fields[i], c.values[i])))
  }

  /** A one-field simple comparator on which the filter as written and the intended filter differ. */
  lemma GetFilterAsWrittenDiffers()
    ensures var c := OptimizedMultiCompare(["id"], [7], Simple);
      && GetFilterAsWritten(c) == And([Eq("id", 7)])
      && GetFilter(c) == Mcmp(["id"], [7])
      && GetFilterAsWritten(c) != GetFilter(c)
  {
    var c := OptimizedMultiCompare(["id"], [7], Simple);
    assert GetFilterAsWritten(c).args[0] == Eq("id", 7);
  }

  /** The difference is in form only: the filter as written selects the same rows as the intended one. */
  lemma GetFilterAsWrittenSameRows<V>(c: OptimizedMultiCompare<V>, row: Row<V>, manual: ManualMeaning<V>)
    requires Shaped(c)
    ensures Eval(GetFilterAsWritten(c), row, manual) <==> Eval(GetFilter(c), row, manual)
  {
    var t := Project(row, c.fields);
    var args := GetFilterAsWritten(c).args;
    FilterMeaning(c, row, manual);
    if Eval(GetFilterAsWritten(c), row, manual) {
      forall i | 0 <= i < |t| ensures HasValue(c, t[i], i) {
        assert Eval(args[i], row, manual);
      }
    } else {
      var i :| 0 <= i < |args| && !Eval(args[i], row, manual);
      assert !HasValue(c, t[i], i);
    }
  }

  // ---------------------------------------------------------------------------
  // The join algorithm
  // ---------------------------------------------------------------------------

  /** The preconditions of the difference scan: same fields, one value per field on both sides. */
  predicate Comparable<V>(c: OptimizedMultiCompare<V>, other: OptimizedMultiCompare<V>) {
    Shaped(c) && Shaped(other) && c.fields == other.fields
  }

  /** Position `i` is a difference: `c` does not accept the value `other` has there. */
  predicate Differs<V(==)>(c: OptimizedMultiCompare<V>, other: OptimizedMultiCompare<V>, i: nat)
    requires Comparable(c, other) && i < |c.fields|
  {
    !HasValue(c, other.values[i], i)
  }

  /** `c` accepts `other`'s value at every position. */
  predicate NoDifference<V(==)>(c: OptimizedMultiCompare<V>, other: OptimizedMultiCompare<V>)
    requires Comparable(c, other)
  {
    forall j :: 0 <= j < |c.fields| ==> !Differs(c, other, j)
  }

  /** `p` is the one and only difference. */
  predicate OnlyDifferenceAt<V(==)>(c: OptimizedMultiCompare<V>, other: OptimizedMultiCompare<V>, p: nat)
    requires Comparable(c, other)
  {
    && p < |c.fields|
    && Differs(c, other, p)
    && forall j :: 0 <= j < |c.fields| && j != p ==> !Differs(c, other, j)
  }

  /**
   * The differences the join refuses: two distinct positions while simple, or
   * any position other than the multi-value position once multi-valued.
   */
  predicate Rejects<V(==)>(c: OptimizedMultiCompare<V>, other: OptimizedMultiCompare<V>)
    requires Comparable(c, other)
  {
    match c.mode
    case Simple =>
      exists j, k :: 0 <= j < k < |c.fields| && Differs(c, other, j) && Differs(c, other, k)
    case MultiValue(p, _) =>
      exists j :: 0 <= j < |c.fields| && j != p && Differs(c, other, j)
  }

  /** What the scan has established about positions below `i`, `posDiff` being the difference seen so far. */
  predicate ScanSoFar<V(==)>(c: OptimizedMultiCompare<V>, other: OptimizedMultiCompare<V>, i: nat, posDiff: Option<nat>)
    requires Comparable(c, other) && i <= |c.fields|
  {
    match posDiff
    case None => forall j :: 0 <= j < i ==> !Differs(c, other, j)
    case Some(q) =>
      && q < i
      && Differs(c, other, q)
      && (forall j :: 0 <= j < i && j != q ==> !Differs(c, other, j))
      && (c.mode.MultiValue? ==> q == c.mode.position)
  }

  /**
   * The scan loop of `joinWith` from position `i` on. `None` is an early
   * rejection (returned before anything is assigned); `Some(posDiff)` is the
   * scan running to the end, with the difference found, if any.
   */
  function Scan<V(==)>(c: OptimizedMultiCompare<V>, other: OptimizedMultiCompare<V>, i: nat, posDiff: Option<nat>)
    : (r: Option<Option<nat>>)
    requires Comparable(c, other) && i <= |c.fields|
    requires ScanSoFar(c, other, i, posDiff)
    ensures r.None? <==> Rejects(c, other)
    ensures r == Some(None) <==> NoDifference(c, other)
    ensures r.Some? && r.value.Some? ==> OnlyDifferenceAt(c, other, r.value.value)
    decreases |c.fields| - i
  {
    if i == |c.fields| then
      Some(posDiff)
    else if !HasValue(c, other.values[i], i) then
      if c.mode.Simple? then
        if posDiff.Some? then
          assert Differs(c, other, posDiff.value) && Differs(c, other, i);
          None
        else Scan(c, other, i + 1, Some(i))
      else
        if i != c.mode.position then
          assert Differs(c, other, i);
          None
        else Scan(c, other, i + 1, Some(i))
    else
      Scan(c, other, i + 1, posDiff)
  }

  /**
   * `joinWith`: absorbs the simple comparator `other` into `c` when the two
   * differ in at most one position, and in the multi-value case only at the
   * IN-list position. `None` is the source's `false`, with `c` untouched.
   */
  function JoinWith<V(==)>(c: OptimizedMultiCompare<V>, other: OptimizedMultiCompare<V>): (r: Option<OptimizedMultiCompare<V>>)
    requires Shaped(c) && Shaped(other)
    ensures r.None? <==> !SameFieldsAs(c, other) || IsMultiValue(other) || Rejects(c, other)
    ensures r.Some? ==> r.value.fields == c.fields && r.value.values == c.values
    ensures SameFieldsAs(c, other) && !IsMultiValue(other) && NoDifference(c, other) ==> r == Some(c)
    ensures forall p: nat :: SameFieldsAs(c, other) && !IsMultiValue(other) && c.mode.Simple?
                          && OnlyDifferenceAt(c, other, p)
                        ==> r == Some(c.(mode := MultiValue(p, [c.values[p], other.values[p]])))
    ensures c.mode.MultiValue? && r.Some? ==>
              && r.value.mode.MultiValue?
              && r.value.mode.position == c.mode.position
              && (|| r.value.mode.valueList == c.mode.valueList
                  || (c.mode.position < |c.fields|
                      && r.value.mode.valueList == c.mode.valueList + [other.values[c.mode.position]]))
    ensures SameFieldsAs(c, other) && !IsMultiValue(other) && c.mode.MultiValue?
            && OnlyDifferenceAt(c, other, c.mode.position)
            ==> r == Some(c.(mode := c.mode.(valueList := c.mode.valueList + [other.values[c.mode.position]])))
  {
    if !SameFieldsAs(c, other) then None
    else if IsMultiValue(other) then None
    else
      var scan := Scan(c, other, 0, None);
      if scan.None? then None
      else if scan.value.None? then Some(c)
      else
        var p := scan.value.value;
        if c.mode.MultiValue? && p == c.mode.position then
          Some(c.(mode := MultiValue(p, c.mode.valueList + [other.values[p]])))
        else
          Some(c.(mode := MultiValue(p, [c.values[p], other.values[p]])))
  }

  /** Joining a comparator whose values `c` already admits changes nothing; in particular joining a simple copy of itself. */
  lemma JoinAdmittedIsIdentity<V>(c: OptimizedMultiCompare<V>, other: OptimizedMultiCompare<V>)
    requires Comparable(c, other) && other.mode.Simple?
    requires Admits(c, other.values)
    ensures JoinWith(c, other) == Some(c)
  {
    assert NoDifference(c, other) by {
      forall j | 0 <= j < |c.fields| ensures !Differs(c, other, j) {
        assert HasValue(c, other.values[j], j);
      }
    }
  }

  /** A multi-valued comparator refuses a copy of itself, because the other side of a join must be simple. */
  lemma JoinMultiRefusesCopy<V>(c: OptimizedMultiCompare<V>)
    requires Shaped(c) && c.mode.MultiValue?
    ensures JoinWith(c, c).None?
  {
  }

  /** `JoinWith` keeps the comparator invariant. */
  lemma JoinPreservesValid<V>(c: OptimizedMultiCompare<V>, other: OptimizedMultiCompare<V>)
    requires Valid(c) && Shaped(other)
    requires JoinWith(c, other).Some?
    ensures Valid(JoinWith(c, other).value)
  {
    var r := JoinWith(c, other).value;
    if !NoDifference(c, other) {
      match c.mode
      case Simple =>
        var p :| 0 <= p < |c.fields| && Differs(c, other, p);
        assert OnlyDifferenceAt(c, other, p);
      case MultiValue(p, vs) =>
        var q :| 0 <= q < |c.fields| && Differs(c, other, q);
        assert q == p;
        assert OnlyDifferenceAt(c, other, p);
        var vs' := vs + [other.values[p]];
        assert r.mode.valueList == vs';
        forall i, j | 0 <= i < j < |vs'| ensures vs'[i] != vs'[j] {
          if j == |vs| {
            assert vs'[i] in vs;
          }
        }
    }
  }

  /**
   * Soundness of the join: the tuples the joined comparator matches are exactly
   * those `c` matched plus the one tuple of `other`.
   */
  lemma JoinSound<V>(c: OptimizedMultiCompare<V>, other: OptimizedMultiCompare<V>, t: seq<V>)
    requires Shaped(c) && Shaped(other)
    requires JoinWith(c, other).Some?
    ensures Admits(JoinWith(c, other).value, t) <==> Admits(c, t) || t == other.values
  {
    var r := JoinWith(c, other).value;
    if |t| != |c.fields| {
    } else if NoDifference(c, other) {
      if t == other.values {
        forall i | 0 <= i < |t| ensures HasValue(c, t[i], i) {
          assert !Differs(c, other, i);
        }
      }
    } else {
      var p: nat;
      match c.mode {
        case Simple =>
          p :| 0 <= p < |c.fields| && Differs(c, other, p);
          assert OnlyDifferenceAt(c, other, p);
        case MultiValue(q, vs) =>
          p :| 0 <= p < |c.fields| && Differs(c, other, p);
          assert p == q;
          assert OnlyDifferenceAt(c, other, p);
      }
      assert r.mode == MultiValue(p, r.mode.valueList);
      // away from p, the two comparators and the other tuple agree
      forall i | 0 <= i < |c.fields| && i != p
        ensures HasValue(r, other.values[i], i) && (HasValue(r, t[i], i) <==> HasValue(c, t[i], i))
      {
        assert !Differs(c, other, i);
      }
      if Admits(r, t) && !Admits(c, t) {
        var i :| 0 <= i < |t| && !HasValue(c, t[i], i);
        assert i == p;
        assert t[p] == other.values[p];
        forall k | 0 <= k < |t| ensures t[k] == other.values[k] {
          if k != p {
            assert HasValue(r, t[k], k) && !Differs(c, other, k);
          }
        }
      }
      if t == other.values {
        assert HasValue(r, t[p], p);
      }
      if Admits(c, t) {
        assert HasValue(c, t[p], p);
        assert HasValue(r, t[p], p);
      }
    }
  }
}

=== FILE: expressions.dfy ===
/**
 * The expression toolkit the optimiser builds filters with, reduced to an abstract
 * syntax tree and an evaluation against a row. Structural equality of two `Expr`
 * values stands in for the toolkit's comparison of string renderings.
 */
module Expressions {

  /** A column name. */
  type Field = string

  /** A table row: the value of every column. */
  type Row<V> = Field -> V

  /** The meaning of manually written filters, which the optimiser never looks inside. */
  type ManualMeaning<!V> = (nat, Row<V>) -> bool

  datatype Expr<V> =
    | Mcmp(fields: seq<Field>, values: seq<V>)      // fields[i] = values[i] for every i
    | Eq(field: Field, value: V)                     // field = value
    | IsIn(field: Field, valueList: seq<V>)          // field IN (valueList)
    | And(args: seq<Expr<V>>)                        // conjunction of all args
    | Or(left: Expr<V>, right: Expr<V>)              // disjunction
    | True                                           // the universally true constant
    | Manual(id: nat)                                // an opaque, manually written filter

  /** The toolkit's `isTrue` flag: set only on the universally true constant. */
  predicate IsTrue<V>(e: Expr<V>) {
    e.True?
  }

  /** Does `row` satisfy `e`? Manual filters are interpreted by `manual`. */
  predicate Eval<V(==)>(e: Expr<V>, row: Row<V>, manual: ManualMeaning<V>)
    decreases e
  {
    match e
    case Mcmp(fs, vs) => |fs| == |vs| && forall i :: 0 <= i < |fs| ==> row(fs[i]) == vs[i]
    case Eq(f, v) => row(f) == v
    case IsIn(f, vs) => row(f) in vs
    case And(args) => forall i :: 0 <= i < |args| ==> Eval(args[i], row, manual)
    case Or(a, b) => Eval(a, row, manual) || Eval(b, row, manual)
    case True => true
    case Manual(id) => manual(id, row)
  }
}

=== FILE: grouping.dfy ===
/**
 * The grouping pass: a stable bucket insertion that offers every select, in
 * input order, to the representatives of the buckets built so far, and starts
 * a new bucket when none absorbs it. `GroupSelect` runs it twice: first over
 * the optimised selects with the comparator join, then over everything left
 * with the OR-append.
 */
module Grouping {
  import opened Wrappers
  import opened Expressions
  import opened Comparators
  import opened Selects

  /** The two join methods `groupSelectStep` is called with. */
  datatype JoinMethod = OptimizedAppend | Append

  /** `g[joinMethod](x)`: the representative `g` tries to absorb `x`. */
  function Join<V(==)>(m: JoinMethod, g: Select<V>, x: Select<V>): (r: Option<Select<V>>)
    requires Ready(g) && Ready(x)
    ensures r.Some? ==> Keeps(r.value, g) && Ready(r.value)
    ensures m == Append ==> (r.Some? <==> CanAppendTo(g, x))
    ensures m == OptimizedAppend && Pure(g) && r.Some? ==> Pure(r.value)
  {
    match m
    case OptimizedAppend => OptimizedAppendTo(g, x)
    case Append => AppendTo(g, x)
  }

  /** The selects a join method is sound for: all of them for the OR-append, comparator-only ones for the comparator join. */
  predicate Fits<V(==)>(m: JoinMethod, s: Select<V>) {
    Ready(s) && (m == OptimizedAppend ==> Pure(s))
  }

  /** A successful join fetches exactly the rows of the two selects together. */
  lemma JoinSound<V>(m: JoinMethod, g: Select<V>, x: Select<V>, row: Row<V>, manual: ManualMeaning<V>)
    requires Fits(m, g) && Fits(m, x)
    requires Join(m, g, x).Some?
    ensures Fits(m, Join(m, g, x).value)
    ensures Matches(Join(m, g, x).value, row, manual) <==> Matches(g, row, manual) || Matches(x, row, manual)
  {
    match m
    case OptimizedAppend => OptimizedAppendSound(g, x, row, manual);
    case Append => AppendSound(g, x, row, manual);
  }

  /** A bucket: its representative and the input index it started from. */
  datatype Bucket<V> = Bucket(rep: Select<V>, origin: nat)

  /** The state of the pass: the buckets in creation order and, for each input consumed, the bucket it went to. */
  datatype PassState<V> = PassState(buckets: seq<Bucket<V>>, owner: seq<nat>)

  predicate AllReady<V(==)>(ss: seq<Select<V>>) {
    forall j :: 0 <= j < |ss| ==> Ready(ss[j])
  }

  predicate RepsReady<V(==)>(bs: seq<Bucket<V>>) {
    forall k :: 0 <= k < |bs| ==> Ready(bs[k].rep)
  }

  /**
   * `_.find` over the representatives from position `i`: the first bucket whose
   * representative absorbs `x`, or `|bs|` when none does.
   */
  function FirstAbsorber<V(==)>(m: JoinMethod, bs: seq<Bucket<V>>, x: Select<V>, i: nat): (k: nat)
    requires RepsReady(bs) && Ready(x) && i <= |bs|
    ensures i <= k <= |bs|
    ensures forall j :: i <= j < k ==> Join(m, bs[j].rep, x).None?
    ensures k < |bs| ==> Join(m, bs[k].rep, x).Some?
    decreases |bs| - i
  {
    if i == |bs| then i
    else if Join(m, bs[i].rep, x).Some? then i
    else FirstAbsorber(m, bs, x, i + 1)
  }

  /**
   * One step of the pass: `x`, the input at index `|g.owner|`, is absorbed by
   * the first representative that accepts it, or starts a new bucket at the end.
   */
  function Insert<V(==)>(m: JoinMethod, g: PassState<V>, x: Select<V>): (r: PassState<V>)
    requires RepsReady(g.buckets) && Ready(x)
    ensures RepsReady(r.buckets)
    ensures |r.owner| == |g.owner| + 1 && r.owner[..|g.owner|] == g.owner
    ensures var k := r.owner[|g.owner|];
      && k <= |g.buckets|
      && |g.buckets| <= |r.buckets| <= |g.buckets| + 1
      // every earlier representative was offered `x` and refused it
      && (forall i :: 0 <= i < k ==> Join(m, g.buckets[i].rep, x).None?)
      // the buckets that did not absorb `x` are untouched
      && (forall i :: 0 <= i < |g.buckets| && i != k ==> r.buckets[i] == g.buckets[i])
      && (k == |g.buckets| ==> r.buckets == g.buckets + [Bucket(x, |g.owner|)])
      && (k < |g.buckets| ==>
            && |r.buckets| == |g.buckets|
            && r.buckets[k].origin == g.buckets[k].origin
            && Join(m, g.buckets[k].rep, x) == Some(r.buckets[k].rep))
  {
    var k := FirstAbsorber(m, g.buckets, x, 0);
    if k == |g.buckets| then
      PassState(g.buckets + [Bucket(x, |g.owner|)], g.owner + [k])
    else
      var joined := Join(m, g.buckets[k].rep, x).value;
      PassState(g.buckets[k := g.buckets[k].(rep := joined)], g.owner + [k])
  }

  /**
   * The shape of the pass after consuming `xs`: every input has a bucket; each
   * bucket starts at an input that went to it, keeps that input's table, alias
   * and static filter, and holds only inputs from its start on; buckets are in
   * order of their first input.
   */
  predicate Shape<V(==)>(g: PassState<V>, xs: seq<Select<V>>) {
    && |g.owner| == |xs|
    && |g.buckets| <= |xs|
    && RepsReady(g.buckets)
    && (forall k :: 0 <= k < |g.buckets| ==>
          && g.buckets[k].origin < |xs|
          && g.owner[g.buckets[k].origin] == k
          && Keeps(g.buckets[k].rep, xs[g.buckets[k].origin]))
    && (forall j :: 0 <= j < |xs| ==> g.owner[j] < |g.buckets| && g.buckets[g.owner[j]].origin <= j)
    && (forall k, l :: 0 <= k < l < |g.buckets| ==> g.buckets[k].origin < g.buckets[l].origin)
  }

  /** Consuming one more input keeps the shape of the pass. */
  lemma InsertKeepsShape<V>(m: JoinMethod, g: PassState<V>, xs: seq<Select<V>>, x: Select<V>)
    requires AllReady(xs) && Ready(x) && Shape(g, xs)
    ensures Shape(Insert(m, g, x), xs + [x])
  {
    var r := Insert(m, g, x);
    var kx := r.owner[|xs|];
    if kx == |g.buckets| {
      NewBucketKeepsShape(g, xs, x);
      assert r == PassState(g.buckets + [Bucket(x, |xs|)], g.owner + [kx]);
    } else {
      AbsorbKeepsShape(g, xs, x, kx, r.buckets[kx].rep);
      assert r == PassState(g.buckets[kx := Bucket(r.buckets[kx].rep, g.buckets[kx].origin)], g.owner + [kx]);
    }
  }

  lemma NewBucketKeepsShape<V>(g: PassState<V>, xs: seq<Select<V>>, x: Select<V>)
    requires AllReady(xs) && Ready(x) && Shape(g, xs)
    ensures Shape(PassState(g.buckets + [Bucket(x, |xs|)], g.owner + [|g.buckets|]), xs + [x])
  {
    var r := PassState(g.buckets + [Bucket(x, |xs|)], g.owner + [|g.buckets|]);
    var ys := xs + [x];
    var n := |g.buckets|;
    forall k | 0 <= k < |r.buckets|
      ensures r.buckets[k].origin < |ys| && r.owner[r.buckets[k].origin] == k
      ensures Keeps(r.buckets[k].rep, ys[r.buckets[k].origin])
    {
      if k < n {
        var o := g.buckets[k].origin;
        assert r.buckets[k] == g.buckets[k] && r.owner[o] == g.owner[o] && ys[o] == xs[o];
      }
    }
    forall j | 0 <= j < |ys| ensures r.owner[j] < |r.buckets| && r.buckets[r.owner[j]].origin <= j {
      if j < |xs| {
        assert r.owner[j] == g.owner[j] && r.buckets[g.owner[j]] == g.buckets[g.owner[j]];
      }
    }
    forall k, l | 0 <= k < l < |r.buckets| ensures r.buckets[k].origin < r.buckets[l].origin {
      assert r.buckets[k] == g.buckets[k];
      if l < n {
        assert r.buckets[l] == g.buckets[l];
      }
    }
    assert RepsReady(r.buckets) by {
      forall k | 0 <= k < |r.buckets| ensures Ready(r.buckets[k].rep) {
        if k < n {
          assert r.buckets[k] == g.buckets[k];
        }
      }
    }
  }

  lemma AbsorbKeepsShape<V>(g: PassState<V>, xs: seq<Select<V>>, x: Select<V>, k: nat, rep: Select<V>)
    requires AllReady(xs) && Ready(x) && Shape(g, xs)
    requires k < |g.buckets| && Ready(rep) && Keeps(rep, g.buckets[k].rep)
    ensures Shape(PassState(g.buckets[k := Bucket(rep, g.buckets[k].origin)], g.owner + [k]), xs + [x])
  {
    var r := PassState(g.buckets[k := Bucket(rep, g.buckets[k].origin)], g.owner + [k]);
    var ys := xs + [x];
    forall i | 0 <= i < |r.buckets|
      ensures r.buckets[i].origin == g.buckets[i].origin < |ys|
      ensures r.owner[r.buckets[i].origin] == i
      ensures Keeps(r.buckets[i].rep, ys[r.buckets[i].origin])
    {
      var o := g.buckets[i].origin;
      assert r.owner[o] == g.owner[o] && ys[o] == xs[o];
    }
    forall j | 0 <= j < |ys| ensures r.owner[j] < |r.buckets| && r.buckets[r.owner[j]].origin <= j {
      if j < |xs| {
        assert r.owner[j] == g.owner[j];
      } else {
        assert g.owner[g.buckets[k].origin] == k;
      }
    }
    assert RepsReady(r.buckets) by {
      forall i | 0 <= i < |r.buckets| ensures Ready(r.buckets[i].rep) {
      }
    }
  }

  /** A non-empty sequence is its prefix followed by its last element. */
  lemma PrefixLast<T>(xs: seq<T>)
    requires xs != []
    ensures xs[..|xs| - 1] + [xs[|xs| - 1]] == xs
  {
  }

  /** The pass over `xs`, as a left fold of `Insert`. */
  function Group<V(==)>(m: JoinMethod, xs: seq<Select<V>>): (g: PassState<V>)
    requires AllReady(xs)
    ensures Shape(g, xs)
    decreases |xs|
  {
    if xs == [] then PassState([], [])
    else
      var n := |xs| - 1;
      var prefix, x := xs[..n], xs[n];
      assert AllReady(prefix);
      var prev := Group(m, prefix);
      PrefixLast(xs);
      InsertKeepsShape(m, prev, prefix, x);
      Insert(m, prev, x)
  }

  function Reps<V>(bs: seq<Bucket<V>>): (r: seq<Select<V>>)
    ensures |r| == |bs|
    ensures forall k :: 0 <= k < |bs| ==> r[k] == bs[k].rep
  {
    seq(|bs|, k requires 0 <= k < |bs| => bs[k].rep)
  }

  /** `s` keeps the table, alias and static filter of some select of `xs`. */
  predicate KeptBy<V(==)>(s: Select<V>, xs: seq<Select<V>>) {
    exists j :: 0 <= j < |xs| && Keeps(s, xs[j])
  }

  /** Every select of `r` keeps the table, alias and static filter of some select of `xs`. */
  predicate KeptFrom<V(==)>(r: seq<Select<V>>, xs: seq<Select<V>>) {
    forall k :: 0 <= k < |r| ==> KeptBy(r[k], xs)
  }

  /** Read off the shape of a pass: a non-empty input leaves a bucket, and each representative keeps the target of its first input. */
  lemma ShapeReps<V>(g: PassState<V>, xs: seq<Select<V>>)
    requires Shape(g, xs)
    ensures |xs| > 0 ==> |g.buckets| > 0
    ensures KeptFrom(Reps(g.buckets), xs)
  {
    if |xs| > 0 {
      assert g.owner[0] < |g.buckets|;
    }
    var r := Reps(g.buckets);
    forall k | 0 <= k < |r| ensures KeptBy(r[k], xs) {
      assert Keeps(r[k], xs[g.buckets[k].origin]);
    }
  }

  /**
   * `groupSelectStep`: the representatives of the pass, one per bucket, in order
   * of their first input; each keeps the target and static filter of an input.
   */
  function GroupSelectStep<V(==)>(xs: seq<Select<V>>, m: JoinMethod): (r: seq<Select<V>>)
    requires AllReady(xs)
    ensures |r| <= |xs|
    ensures |xs| > 0 ==> |r| > 0
    ensures AllReady(r)
    ensures KeptFrom(r, xs)
  {
    var g := Group(m, xs);
    ShapeReps(g, xs);
    Reps(g.buckets)
  }

  /** Some select of `ss` fetches `row`. */
  predicate AnyMatches<V(==)>(ss: seq<Select<V>>, row: Row<V>, manual: ManualMeaning<V>)
    requires AllReady(ss)
  {
    exists j :: 0 <= j < |ss| && Matches(ss[j], row, manual)
  }

  /** Some input that went to bucket `k` fetches `row`. */
  predicate Owned<V(==)>(owner: seq<nat>, xs: seq<Select<V>>, k: nat, row: Row<V>, manual: ManualMeaning<V>)
    requires AllReady(xs) && |owner| == |xs|
  {
    exists j :: 0 <= j < |xs| && owner[j] == k && Matches(xs[j], row, manual)
  }

  /** Every representative fits the join method and fetches exactly the rows of the inputs in its bucket. */
  predicate Sound<V(==)>(m: JoinMethod, g: PassState<V>, xs: seq<Select<V>>, row: Row<V>, manual: ManualMeaning<V>)
    requires AllReady(xs) && |g.owner| == |xs|
  {
    forall k :: 0 <= k < |g.buckets| ==>
      Fits(m, g.buckets[k].rep) && (Matches(g.buckets[k].rep, row, manual) <==> Owned(g.owner, xs, k, row, manual))
  }

  /** Recording one more input, owned by `kx`, only adds it to bucket `kx`. */
  lemma OwnedExtend<V>(owner: seq<nat>, xs: seq<Select<V>>, x: Select<V>, kx: nat, k: nat, row: Row<V>, manual: ManualMeaning<V>)
    requires AllReady(xs) && Ready(x) && |owner| == |xs|
    ensures AllReady(xs + [x])
    ensures Owned(owner + [kx], xs + [x], k, row, manual) <==>
              Owned(owner, xs, k, row, manual) || (k == kx && Matches(x, row, manual))
  {
    var o', ys := owner + [kx], xs + [x];
    assert forall j :: 0 <= j < |xs| ==> o'[j] == owner[j] && ys[j] == xs[j];
    if Owned(o', ys, k, row, manual) {
      var j :| 0 <= j < |ys| && o'[j] == k && Matches(ys[j], row, manual);
      if j < |xs| {
        assert Owned(owner, xs, k, row, manual);
      }
    }
    if Owned(owner, xs, k, row, manual) {
      var j :| 0 <= j < |xs| && owner[j] == k && Matches(xs[j], row, manual);
      assert o'[j] == k && Matches(ys[j], row, manual);
    }
    if k == kx && Matches(x, row, manual) {
      assert o'[|xs|] == k && ys[|xs|] == x;
    }
  }

  lemma NewBucketSound<V>(m: JoinMethod, g: PassState<V>, xs: seq<Select<V>>, x: Select<V>, row: Row<V>, manual: ManualMeaning<V>)
    requires AllReady(xs) && Fits(m, x) && Shape(g, xs) && Sound(m, g, xs, row, manual)
    ensures AllReady(xs + [x])
    ensures Sound(m, PassState(g.buckets + [Bucket(x, |xs|)], g.owner + [|g.buckets|]), xs + [x], row, manual)
  {
    var r := PassState(g.buckets + [Bucket(x, |xs|)], g.owner + [|g.buckets|]);
    var kx := |g.buckets|;
    forall k | 0 <= k < |r.buckets|
      ensures Fits(m, r.buckets[k].rep)
      ensures Matches(r.buckets[k].rep, row, manual) <==> Owned(r.owner, xs + [x], k, row, manual)
    {
      OwnedExtend(g.owner, xs, x, kx, k, row, manual);
      if k != kx {
        assert r.buckets[k] == g.buckets[k];
      }
    }
  }

  lemma AbsorbSound<V>(m: JoinMethod, g: PassState<V>, xs: seq<Select<V>>, x: Select<V>, kx: nat, rep: Select<V>,
                       row: Row<V>, manual: ManualMeaning<V>)
    requires AllReady(xs) && Fits(m, x) && |g.owner| == |xs| && Sound(m, g, xs, row, manual)
    requires kx < |g.buckets| && Fits(m, rep)
    requires Matches(rep, row, manual) <==> Matches(g.buckets[kx].rep, row, manual) || Matches(x, row, manual)
    ensures AllReady(xs + [x])
    ensures Sound(m, PassState(g.buckets[kx := Bucket(rep, g.buckets[kx].origin)], g.owner + [kx]), xs + [x], row, manual)
  {
    var r := PassState(g.buckets[kx := Bucket(rep, g.buckets[kx].origin)], g.owner + [kx]);
    forall k | 0 <= k < |r.buckets|
      ensures Fits(m, r.buckets[k].rep)
      ensures Matches(r.buckets[k].rep, row, manual) <==> Owned(r.owner, xs + [x], k, row, manual)
    {
      OwnedExtend(g.owner, xs, x, kx, k, row, manual);
    }
  }

  /** Consuming one more input keeps every representative sound. */
  lemma InsertSound<V>(m: JoinMethod, g: PassState<V>, xs: seq<Select<V>>, x: Select<V>, row: Row<V>, manual: ManualMeaning<V>)
    requires AllReady(xs) && Fits(m, x) && Shape(g, xs) && Sound(m, g, xs, row, manual)
    ensures AllReady(xs + [x]) && |Insert(m, g, x).owner| == |xs + [x]|
    ensures Sound(m, Insert(m, g, x), xs + [x], row, manual)
  {
    var r := Insert(m, g, x);
    var kx := r.owner[|xs|];
    assert r.owner == g.owner + [kx];
    if kx == |g.buckets| {
      NewBucketSound(m, g, xs, x, row, manual);
      assert r == PassState(g.buckets + [Bucket(x, |xs|)], g.owner + [kx]);
    } else {
      var rep := r.buckets[kx].rep;
      JoinSound(m, g.buckets[kx].rep, x, row, manual);
      AbsorbSound(m, g, xs, x, kx, rep, row, manual);
      assert r == PassState(g.buckets[kx := Bucket(rep, g.buckets[kx].origin)], g.owner + [kx]);
    }
  }

  /**
   * Soundness of the pass: the representative of every bucket fetches exactly the
   * rows of the inputs that went to that bucket.
   */
  lemma {:induction false} GroupSound<V>(m: JoinMethod, xs: seq<Select<V>>, row: Row<V>, manual: ManualMeaning<V>)
    requires AllReady(xs)
    requires forall j :: 0 <= j < |xs| ==> Fits(m, xs[j])
    ensures Sound(m, Group(m, xs), xs, row, manual)
    decreases |xs|
  {
    if xs != [] {
      var prefix := xs[..|xs| - 1];
      PrefixFits(m, xs, prefix);
      GroupSound(m, prefix, row, manual);
      GroupUnfold(m, xs);
      PrefixLast(xs);
      InsertStepSound(m, Group(m, prefix), Group(m, xs), prefix, xs[|xs| - 1], xs, row, manual);
    }
  }

  lemma PrefixFits<V>(m: JoinMethod, xs: seq<Select<V>>, prefix: seq<Select<V>>)
    requires xs != [] && prefix == xs[..|xs| - 1] && forall j :: 0 <= j < |xs| ==> Fits(m, xs[j])
    ensures forall j :: 0 <= j < |prefix| ==> Fits(m, prefix[j])
  {
  }

  lemma PrefixOnTarget<V>(xs: seq<Select<V>>, prefix: seq<Select<V>>, t: Select<V>)
    requires xs != [] && prefix == xs[..|xs| - 1] && forall j :: 0 <= j < |xs| ==> CanAppendTo(xs[j], t)
    ensures forall j :: 0 <= j < |prefix| ==> CanAppendTo(prefix[j], t)
  {
  }

  /** The pass over a non-empty input is the pass over all but the last input, followed by one `Insert`. */
  lemma GroupUnfold<V>(m: JoinMethod, xs: seq<Select<V>>)
    requires AllReady(xs) && xs != []
    ensures AllReady(xs[..|xs| - 1]) && Group(m, xs) == Insert(m, Group(m, xs[..|xs| - 1]), xs[|xs| - 1])
  {
  }

  /** The inductive step of `GroupSound`, over the states before and after the last input. */
  lemma InsertStepSound<V>(m: JoinMethod, prev: PassState<V>, g: PassState<V>, prefix: seq<Select<V>>, x: Select<V>,
                           xs: seq<Select<V>>, row: Row<V>, manual: ManualMeaning<V>)
    requires AllReady(prefix) && Fits(m, x) && prefix + [x] == xs && AllReady(xs)
    requires Shape(prev, prefix) && Sound(m, prev, prefix, row, manual)
    requires g == Insert(m, prev, x)
    ensures |g.owner| == |xs| && Sound(m, g, xs, row, manual)
  {
    InsertSound(m, prev, prefix, x, row, manual);
  }

  /** The representatives of a pass together fetch exactly the rows the inputs fetch. */
  lemma GroupSelectStepSound<V>(xs: seq<Select<V>>, m: JoinMethod, row: Row<V>, manual: ManualMeaning<V>)
    requires AllReady(xs)
    requires forall j :: 0 <= j < |xs| ==> Fits(m, xs[j])
    ensures AnyMatches(GroupSelectStep(xs, m), row, manual) <==> AnyMatches(xs, row, manual)
  {
    var g := Group(m, xs);
    var r := GroupSelectStep(xs, m);
    assert r == Reps(g.buckets);
    GroupSound(m, xs, row, manual);
    if AnyMatches(r, row, manual) {
      var k :| 0 <= k < |r| && Matches(r[k], row, manual);
      assert Matches(g.buckets[k].rep, row, manual);
      assert Owned(g.owner, xs, k, row, manual);
    }
    if AnyMatches(xs, row, manual) {
      var j :| 0 <= j < |xs| && Matches(xs[j], row, manual);
      var k := g.owner[j];
      assert Owned(g.owner, xs, k, row, manual);
      assert Matches(r[k], row, manual);
    }
  }

  /**
   * The order of the pass: one representative per bucket, buckets in order of
   * their first input, each keeping that input's target, and every input owned by
   * a bucket that started at or before it.
   */
  lemma GroupSelectStepOrder<V>(xs: seq<Select<V>>, m: JoinMethod)
    requires AllReady(xs)
    ensures var g, r := Group(m, xs), GroupSelectStep(xs, m);
      && |r| == |g.buckets|
      && (forall k :: 0 <= k < |r| ==>
            r[k] == g.buckets[k].rep && g.buckets[k].origin < |xs| && Keeps(r[k], xs[g.buckets[k].origin]))
      && (forall k, l :: 0 <= k < l < |r| ==> g.buckets[k].origin < g.buckets[l].origin)
      && (forall j :: 0 <= j < |xs| ==> g.owner[j] < |r| && g.buckets[g.owner[j]].origin <= j)
  {
    var g := Group(m, xs);
    ShapeOrder(g, xs);
  }

  lemma ShapeOrder<V>(g: PassState<V>, xs: seq<Select<V>>)
    requires Shape(g, xs)
    ensures var r := Reps(g.buckets);
      && |r| == |g.buckets|
      && (forall k :: 0 <= k < |r| ==>
            r[k] == g.buckets[k].rep && g.buckets[k].origin < |xs| && Keeps(r[k], xs[g.buckets[k].origin]))
      && (forall k, l :: 0 <= k < l < |r| ==> g.buckets[k].origin < g.buckets[l].origin)
      && (forall j :: 0 <= j < |xs| ==> g.owner[j] < |r| && g.buckets[g.owner[j]].origin <= j)
  {
  }

  /** No later input joins into any earlier one. */
  predicate NoJoins<V(==)>(m: JoinMethod, xs: seq<Select<V>>)
    requires AllReady(xs)
  {
    forall i, j :: 0 <= i < j < |xs| ==> Join(m, xs[i], xs[j]).None?
  }

  /** When no input joins into an earlier one, the pass leaves the input as it is. */
  lemma {:induction false} GroupNoJoins<V>(xs: seq<Select<V>>, m: JoinMethod)
    requires AllReady(xs) && NoJoins(m, xs)
    ensures Reps(Group(m, xs).buckets) == xs
    decreases |xs|
  {
    if xs != [] {
      var n := |xs| - 1;
      var prefix, x := xs[..n], xs[n];
      PrefixNoJoins(m, xs, prefix);
      GroupNoJoins(prefix, m);
      GroupUnfold(m, xs);
      PrefixLast(xs);
      InsertNoJoin(m, Group(m, prefix), prefix, x);
    }
  }

  lemma PrefixNoJoins<V>(m: JoinMethod, xs: seq<Select<V>>, prefix: seq<Select<V>>)
    requires AllReady(xs) && NoJoins(m, xs) && xs != [] && prefix == xs[..|xs| - 1]
    ensures AllReady(prefix) && NoJoins(m, prefix)
    ensures forall i :: 0 <= i < |prefix| ==> Join(m, prefix[i], xs[|xs| - 1]).None?
  {
  }

  /** An input that no representative absorbs is appended as a bucket of its own. */
  lemma InsertNoJoin<V>(m: JoinMethod, g: PassState<V>, prefix: seq<Select<V>>, x: Select<V>)
    requires AllReady(prefix) && Ready(x) && RepsReady(g.buckets) && Reps(g.buckets) == prefix
    requires forall i :: 0 <= i < |prefix| ==> Join(m, prefix[i], x).None?
    ensures Reps(Insert(m, g, x).buckets) == prefix + [x]
  {
    var r := Insert(m, g, x);
    var k := r.owner[|g.owner|];
    assert k == |g.buckets|;
    assert r.buckets == g.buckets + [Bucket(x, |g.owner|)];
    assert Reps(r.buckets) == prefix + [x] by {
      var rr := Reps(r.buckets);
      forall i | 0 <= i < |rr| ensures rr[i] == (prefix + [x])[i] {
        if i < |prefix| {
          assert r.buckets[i] == g.buckets[i];
        }
      }
    }
  }

  /** `groupSelectStep` over selects none of which joins into an earlier one returns them unchanged. */
  lemma GroupSelectStepNoJoins<V>(xs: seq<Select<V>>, m: JoinMethod)
    requires AllReady(xs) && NoJoins(m, xs)
    ensures GroupSelectStep(xs, m) == xs
  {
    GroupNoJoins(xs, m);
  }

  /** With the OR-append, selects on pairwise different tables or aliases are returned unchanged. */
  lemma AppendStepDistinctTargets<V>(xs: seq<Select<V>>)
    requires AllReady(xs)
    requires forall i, j :: 0 <= i < j < |xs| ==> !CanAppendTo(xs[i], xs[j])
    ensures GroupSelectStep(xs, Append) == xs
  {
    assert NoJoins(Append, xs);
    GroupNoJoins(xs, Append);
  }

  /** `_.filter(selectList, {isOptimized: b})`: the selects whose flag is `b`, in input order. */
  function WithFlag<V(==)>(xs: seq<Select<V>>, b: bool): (r: seq<Select<V>>)
    ensures forall i :: 0 <= i < |r| ==> r[i] in xs && r[i].isOptimized == b
    ensures forall j :: 0 <= j < |xs| && xs[j].isOptimized == b ==> xs[j] in r
    ensures |r| <= |xs|
  {
    if xs == [] then []
    else (if xs[0].isOptimized == b then [xs[0]] else []) + WithFlag(xs[1..], b)
  }

  /** Splitting by the flag loses and duplicates nothing. */
  lemma {:induction false} WithFlagSplits<V>(xs: seq<Select<V>>)
    ensures |WithFlag(xs, true)| + |WithFlag(xs, false)| == |xs|
  {
    if xs != [] {
      WithFlagSplits(xs[1..]);
    }
  }

  /** `_.filter` keeps input order: filtering a concatenation concatenates the filtered parts. */
  lemma {:induction false} WithFlagConcat<V>(xs: seq<Select<V>>, ys: seq<Select<V>>, b: bool)
    ensures WithFlag(xs + ys, b) == WithFlag(xs, b) + WithFlag(ys, b)
    decreases |xs|
  {
    if xs == [] {
      assert xs + ys == ys;
    } else {
      assert (xs + ys)[0] == xs[0] && (xs + ys)[1..] == xs[1..] + ys;
      WithFlagConcat(xs[1..], ys, b);
    }
  }

  /** The two filters together hold every input exactly as often as the input does. */
  lemma {:induction false} WithFlagMultiset<V>(xs: seq<Select<V>>)
    ensures multiset(WithFlag(xs, true)) + multiset(WithFlag(xs, false)) == multiset(xs)
  {
    if xs != [] {
      var t, f := WithFlag(xs[1..], true), WithFlag(xs[1..], false);
      WithFlagMultiset(xs[1..]);
      if xs[0].isOptimized {
        assert WithFlag(xs, true) == [xs[0]] + t && WithFlag(xs, false) == [] + f;
      } else {
        assert WithFlag(xs, true) == [] + t && WithFlag(xs, false) == [xs[0]] + f;
      }
      assert xs == [xs[0]] + xs[1..];
    }
  }

  /** When every input carries the flag, the filter returns the input itself. */
  lemma {:induction false} WithFlagAll<V>(xs: seq<Select<V>>, b: bool)
    requires forall j :: 0 <= j < |xs| ==> xs[j].isOptimized == b
    ensures WithFlag(xs, b) == xs && WithFlag(xs, !b) == []
  {
    if xs != [] {
      WithFlagAll(xs[1..], b);
      assert xs == [xs[0]] + xs[1..];
    }
  }

  /** Keeping a target is transitive. */
  lemma KeptFromTrans<V>(a: seq<Select<V>>, b: seq<Select<V>>, c: seq<Select<V>>)
    requires KeptFrom(a, b) && KeptFrom(b, c)
    ensures KeptFrom(a, c)
  {
    forall k | 0 <= k < |a| ensures KeptBy(a[k], c) {
      var i :| 0 <= i < |b| && Keeps(a[k], b[i]);
      var j :| 0 <= j < |c| && Keeps(b[i], c[j]);
      assert Keeps(a[k], c[j]);
    }
  }

  /** A selection of the inputs keeps the inputs' targets. */
  lemma KeptFromMembers<V>(a: seq<Select<V>>, c: seq<Select<V>>)
    requires forall i :: 0 <= i < |a| ==> a[i] in c
    ensures KeptFrom(a, c)
  {
    forall k | 0 <= k < |a| ensures KeptBy(a[k], c) {
      var j :| 0 <= j < |c| && c[j] == a[k];
      assert Keeps(a[k], c[j]);
    }
  }

  lemma KeptFromConcat<V>(a: seq<Select<V>>, b: seq<Select<V>>, c: seq<Select<V>>)
    requires KeptFrom(a, c) && KeptFrom(b, c)
    ensures KeptFrom(a + b, c)
  {
    var ab := a + b;
    forall k | 0 <= k < |ab| ensures KeptBy(ab[k], c) {
      if k < |a| {
        assert ab[k] == a[k];
      } else {
        assert ab[k] == b[k - |a|];
      }
    }
  }

  /** The inputs of the second stage: the first stage's representatives, then every non-optimised select. */
  function SecondStageInput<V(==)>(xs: seq<Select<V>>): (ys: seq<Select<V>>)
    requires AllReady(xs)
    ensures AllReady(ys) && KeptFrom(ys, xs)
    ensures |ys| <= |xs|
    ensures |xs| > 0 ==> |ys| > 0
    ensures |WithFlag(xs, false)| <= |ys| && ys[|ys| - |WithFlag(xs, false)|..] == WithFlag(xs, false)
  {
    var optimized := WithFlag(xs, true);
    var rest := WithFlag(xs, false);
    KeptFromMembers(optimized, xs);
    KeptFromMembers(rest, xs);
    var stage1 := GroupSelectStep(optimized, OptimizedAppend);
    KeptFromTrans(stage1, optimized, xs);
    KeptFromConcat(stage1, rest, xs);
    WithFlagSplits(xs);
    stage1 + rest
  }

  /**
   * `groupSelect`: first merge the optimised selects with the comparator join,
   * then merge those results and every non-optimised select with the OR-append.
   */
  function GroupSelect<V(==)>(xs: seq<Select<V>>): (r: seq<Select<V>>)
    requires AllReady(xs)
    ensures |r| <= |xs|
    ensures |xs| > 0 ==> |r| > 0
    ensures KeptFrom(r, xs)
  {
    var ys := SecondStageInput(xs);
    var r := GroupSelectStep(ys, Append);
    KeptFromTrans(r, ys, xs);
    r
  }

  /** The selects drawn from ready inputs are ready. */
  lemma MembersReady<V>(a: seq<Select<V>>, xs: seq<Select<V>>)
    requires AllReady(xs) && forall i :: 0 <= i < |a| ==> a[i] in xs
    ensures AllReady(a)
  {
    forall i | 0 <= i < |a| ensures Ready(a[i]) {
      var j :| 0 <= j < |xs| && xs[j] == a[i];
    }
  }

  lemma AnyMatchesConcat<V>(a: seq<Select<V>>, b: seq<Select<V>>, row: Row<V>, manual: ManualMeaning<V>)
    requires AllReady(a) && AllReady(b)
    ensures AllReady(a + b)
    ensures AnyMatches(a + b, row, manual) <==> AnyMatches(a, row, manual) || AnyMatches(b, row, manual)
  {
    var ab := a + b;
    if AnyMatches(ab, row, manual) {
      var j :| 0 <= j < |ab| && Matches(ab[j], row, manual);
      if j < |a| {
        assert ab[j] == a[j];
      } else {
        assert ab[j] == b[j - |a|];
      }
    }
    if AnyMatches(a, row, manual) {
      var j :| 0 <= j < |a| && Matches(a[j], row, manual);
      assert ab[j] == a[j];
    }
    if AnyMatches(b, row, manual) {
      var j :| 0 <= j < |b| && Matches(b[j], row, manual);
      assert ab[|a| + j] == b[j];
    }
  }

  /** Splitting by the flag keeps every row some input fetches. */
  lemma AnyMatchesSplit<V>(xs: seq<Select<V>>, row: Row<V>, manual: ManualMeaning<V>)
    requires AllReady(xs)
    ensures AllReady(WithFlag(xs, true)) && AllReady(WithFlag(xs, false))
    ensures AnyMatches(WithFlag(xs, true), row, manual) || AnyMatches(WithFlag(xs, false), row, manual) <==>
              AnyMatches(xs, row, manual)
  {
    var opt, rest := WithFlag(xs, true), WithFlag(xs, false);
    MembersReady(opt, xs);
    MembersReady(rest, xs);
    if AnyMatches(opt, row, manual) {
      var i :| 0 <= i < |opt| && Matches(opt[i], row, manual);
      var j :| 0 <= j < |xs| && xs[j] == opt[i];
    }
    if AnyMatches(rest, row, manual) {
      var i :| 0 <= i < |rest| && Matches(rest[i], row, manual);
      var j :| 0 <= j < |xs| && xs[j] == rest[i];
    }
    if AnyMatches(xs, row, manual) {
      var j :| 0 <= j < |xs| && Matches(xs[j], row, manual);
      var part := if xs[j].isOptimized then opt else rest;
      var i :| 0 <= i < |part| && part[i] == xs[j];
      assert Matches(part[i], row, manual);
    }
  }

  /** The optimised selects, when driven by their comparators alone, fit the comparator join. */
  lemma OptimizedFit<V>(xs: seq<Select<V>>)
    requires AllReady(xs)
    requires forall j :: 0 <= j < |xs| && xs[j].isOptimized ==> Pure(xs[j])
    ensures forall i :: 0 <= i < |WithFlag(xs, true)| ==> Fits(OptimizedAppend, WithFlag(xs, true)[i])
  {
    var opt := WithFlag(xs, true);
    forall i | 0 <= i < |opt| ensures Fits(OptimizedAppend, opt[i]) {
      var j :| 0 <= j < |xs| && xs[j] == opt[i];
    }
  }

  /**
   * Soundness of `groupSelect`: when every optimised select is driven by its
   * comparator alone, the merged selects together fetch exactly the rows the
   * inputs fetch.
   */
  lemma GroupSelectSound<V>(xs: seq<Select<V>>, row: Row<V>, manual: ManualMeaning<V>)
    requires AllReady(xs)
    requires forall j :: 0 <= j < |xs| && xs[j].isOptimized ==> Pure(xs[j])
    ensures AnyMatches(GroupSelect(xs), row, manual) <==> AnyMatches(xs, row, manual)
  {
    var opt, rest := WithFlag(xs, true), WithFlag(xs, false);
    AnyMatchesSplit(xs, row, manual);
    OptimizedFit(xs);
    var stage1 := GroupSelectStep(opt, OptimizedAppend);
    GroupSelectStepSound(opt, OptimizedAppend, row, manual);
    var ys := SecondStageInput(xs);
    assert ys == stage1 + rest;
    AnyMatchesConcat(stage1, rest, row, manual);
    GroupSelectStepSound(ys, Append, row, manual);
  }

  /** The first result of a pass is its first input's bucket, so it keeps that input's target and static filter. */
  lemma GroupSelectStepFirst<V>(xs: seq<Select<V>>, m: JoinMethod)
    requires AllReady(xs) && xs != []
    ensures Keeps(GroupSelectStep(xs, m)[0], xs[0])
  {
    var g, r := Group(m, xs), GroupSelectStep(xs, m);
    GroupSelectStepOrder(xs, m);
    assert g.owner[0] == 0;
  }

  /** With no optimised select, the non-optimised filter is the whole input. */
  lemma {:induction false} WithFlagNone<V>(xs: seq<Select<V>>)
    requires WithFlag(xs, true) == []
    ensures WithFlag(xs, false) == xs
  {
    if xs != [] {
      WithFlagNone(xs[1..]);
      assert xs == [xs[0]] + xs[1..];
    }
  }

  /**
   * The second stage sees the first stage's results before the non-optimised
   * selects, so `groupSelect`'s first result keeps the target and static filter
   * of the first OPTIMISED input, which need not be the first input.
   */
  lemma GroupSelectFirst<V>(xs: seq<Select<V>>)
    requires AllReady(xs) && xs != []
    ensures WithFlag(xs, true) != [] ==> Keeps(GroupSelect(xs)[0], WithFlag(xs, true)[0])
    ensures WithFlag(xs, true) == [] ==> Keeps(GroupSelect(xs)[0], xs[0])
  {
    var opt, rest := WithFlag(xs, true), WithFlag(xs, false);
    var ys := SecondStageInput(xs);
    MembersReady(opt, xs);
    var stage1 := GroupSelectStep(opt, OptimizedAppend);
    assert ys == stage1 + rest;
    GroupSelectStepFirst(ys, Append);
    if opt != [] {
      GroupSelectStepFirst(opt, OptimizedAppend);
      assert ys[0] == stage1[0];
    } else {
      WithFlagNone(xs);
      assert ys == xs;
    }
  }

  /** Every select of `ss` carries the static filter `f`. */
  predicate SharesStatic<V(==)>(ss: seq<Select<V>>, f: Option<Expr<V>>) {
    forall j :: 0 <= j < |ss| ==> ss[j].staticF == f
  }

  /** Some select of `ss` fetches `row` through its overall filter, static part included. */
  predicate AnyFetches<V(==)>(ss: seq<Select<V>>, row: Row<V>, manual: ManualMeaning<V>)
    requires AllReady(ss)
  {
    exists j :: 0 <= j < |ss| && Eval(Selects.GetFilter(ss[j]), row, manual)
  }

  /** Under one shared static filter, the overall filters fetch a row iff it passes that filter and some partial filter. */
  lemma AnyFetchesShared<V>(ss: seq<Select<V>>, f: Option<Expr<V>>, row: Row<V>, manual: ManualMeaning<V>)
    requires AllReady(ss) && SharesStatic(ss, f)
    ensures AnyFetches(ss, row, manual) <==> (f.Some? ==> Eval(f.value, row, manual)) && AnyMatches(ss, row, manual)
  {
    if AnyFetches(ss, row, manual) {
      var j :| 0 <= j < |ss| && Eval(Selects.GetFilter(ss[j]), row, manual);
      GetFilterMeaning(ss[j], row, manual);
    }
    if (f.Some? ==> Eval(f.value, row, manual)) && AnyMatches(ss, row, manual) {
      var j :| 0 <= j < |ss| && Matches(ss[j], row, manual);
      GetFilterMeaning(ss[j], row, manual);
    }
  }

  /**
   * Soundness of `groupSelect` for the overall filters a caller runs: when all
   * inputs share one static filter and every optimised select is driven by its
   * comparator alone, the results fetch exactly the rows the inputs fetch.
   */
  lemma GroupSelectFullSound<V>(xs: seq<Select<V>>, f: Option<Expr<V>>, row: Row<V>, manual: ManualMeaning<V>)
    requires AllReady(xs) && SharesStatic(xs, f)
    requires forall j :: 0 <= j < |xs| && xs[j].isOptimized ==> Pure(xs[j])
    ensures AllReady(GroupSelect(xs))
    ensures AnyFetches(GroupSelect(xs), row, manual) <==> AnyFetches(xs, row, manual)
  {
    var r := GroupSelect(xs);
    GroupSelectSound(xs, row, manual);
    forall k | 0 <= k < |r| ensures r[k].staticF == f {
      assert KeptBy(r[k], xs);
    }
    AnyFetchesShared(r, f, row, manual);
    AnyFetchesShared(xs, f, row, manual);
  }

  /** With the OR-append, inputs that all share one target end up in a single bucket. */
  lemma {:induction false} AppendPassSingle<V>(xs: seq<Select<V>>, t: Select<V>)
    requires AllReady(xs) && xs != []
    requires forall j :: 0 <= j < |xs| ==> CanAppendTo(xs[j], t)
    ensures |Group(Append, xs).buckets| == 1
    decreases |xs|
  {
    var n := |xs| - 1;
    var prefix, x := xs[..n], xs[n];
    GroupUnfold(Append, xs);
    if n == 0 {
      FirstInsertStartsBucket(Append, Group(Append, prefix), x);
    } else {
      PrefixOnTarget(xs, prefix, t);
      AppendPassSingle(prefix, t);
      AppendAbsorbs(Group(Append, prefix), prefix, x, t);
    }
  }

  /** The first input always starts a bucket. */
  lemma FirstInsertStartsBucket<V>(m: JoinMethod, g: PassState<V>, x: Select<V>)
    requires g.buckets == [] && Ready(x)
    ensures |Insert(m, g, x).buckets| == 1
  {
  }

  /** A single OR-append bucket on the same target as `x` absorbs it. */
  lemma AppendAbsorbs<V>(g: PassState<V>, xs: seq<Select<V>>, x: Select<V>, t: Select<V>)
    requires AllReady(xs) && Ready(x) && Shape(g, xs) && |g.buckets| == 1
    requires forall j :: 0 <= j < |xs| ==> CanAppendTo(xs[j], t)
    requires CanAppendTo(x, t)
    ensures |Insert(Append, g, x).buckets| == 1
  {
    assert CanAppendTo(xs[g.buckets[0].origin], t);
    assert Join(Append, g.buckets[0].rep, x).Some?;
  }

  /** `groupSelect` over selects that all share one table and alias yields exactly one select. */
  lemma GroupSelectSingle<V>(xs: seq<Select<V>>)
    requires AllReady(xs) && xs != []
    requires forall j :: 0 <= j < |xs| ==> CanAppendTo(xs[j], xs[0])
    ensures |GroupSelect(xs)| == 1
  {
    var ys := SecondStageInput(xs);
    forall i | 0 <= i < |ys| ensures CanAppendTo(ys[i], xs[0]) {
      assert KeptBy(ys[i], xs);
      var j :| 0 <= j < |xs| && Keeps(ys[i], xs[j]);
      CanAppendToEquivalence(ys[i], xs[j], xs[0]);
    }
    AppendPassSingle(ys, xs[0]);
  }

  // ---------------------------------------------------------------------------
  // Folding single-row lookups into one IN-list
  // ---------------------------------------------------------------------------

  /**
   * `s` is a lookup like `s0` with key position `p`: ready, driven by a simple
   * comparator alone, on the same target and fields as `s0`, and agreeing with
   * `s0` at every field but `p`.
   */
  predicate LookupLike<V(==)>(s: Select<V>, s0: Select<V>, p: nat) {
    && Ready(s) && Pure(s) && Ready(s0) && Pure(s0)
    && CanAppendTo(s, s0)
    && s.omc.value.mode.Simple?
    && s.omc.value.fields == s0.omc.value.fields
    && p < |s.omc.value.fields|
    && forall i :: 0 <= i < |s.omc.value.fields| && i != p ==> s.omc.value.values[i] == s0.omc.value.values[i]
  }

  /** Lookups on one table and alias that differ only in the value of field `p`, a different value each. */
  predicate Lookups<V(==)>(xs: seq<Select<V>>, p: nat) {
    && |xs| > 0
    && (forall j :: 0 <= j < |xs| ==> LookupLike(xs[j], xs[0], p))
    && forall j, k :: 0 <= j < k < |xs| ==> xs[j].omc.value.values[p] != xs[k].omc.value.values[p]
  }

  /** The key values of the lookups, in input order. */
  function KeyValues<V>(xs: seq<Select<V>>, p: nat): (vs: seq<V>)
    requires forall j :: 0 <= j < |xs| ==> xs[j].omc.Some? && p < |xs[j].omc.value.values|
    ensures |vs| == |xs|
    ensures forall j :: 0 <= j < |xs| ==> vs[j] == xs[j].omc.value.values[p]
  {
    seq(|xs|, j requires 0 <= j < |xs| => xs[j].omc.value.values[p])
  }

  /** What the comparator join makes of the lookups: the first one, with an IN-list of every key value once there are two. */
  function Merged<V(==)>(xs: seq<Select<V>>, p: nat): Select<V>
    requires Lookups(xs, p)
  {
    if |xs| == 1 then xs[0]
    else xs[0].(omc := Some(xs[0].omc.value.(mode := MultiValue(p, KeyValues(xs, p)))), filter := None)
  }

  lemma LookupsReady<V>(xs: seq<Select<V>>, p: nat)
    requires Lookups(xs, p)
    ensures AllReady(xs)
  {
    forall j | 0 <= j < |xs| ensures Ready(xs[j]) {
      assert LookupLike(xs[j], xs[0], p);
    }
  }

  lemma LookupsPrefix<V>(xs: seq<Select<V>>, prefix: seq<Select<V>>, p: nat)
    requires Lookups(xs, p) && |xs| >= 2 && prefix == xs[..|xs| - 1]
    ensures Lookups(prefix, p) && prefix[0] == xs[0]
    ensures KeyValues(xs, p) == KeyValues(prefix, p) + [xs[|xs| - 1].omc.value.values[p]]
  {
    assert forall j :: 0 <= j < |prefix| ==> prefix[j] == xs[j];
  }

  /** The last lookup joins into what the comparator join made of the others, extending the IN-list. */
  lemma JoinIntoMerged<V>(xs: seq<Select<V>>, p: nat)
    requires Lookups(xs, p) && |xs| >= 2
    ensures Lookups(xs[..|xs| - 1], p)
    ensures Ready(Merged(xs[..|xs| - 1], p)) && Ready(xs[|xs| - 1])
    ensures OptimizedAppendTo(Merged(xs[..|xs| - 1], p), xs[|xs| - 1]) == Some(Merged(xs, p))
  {
    var n := |xs| - 1;
    var prefix, x := xs[..n], xs[n];
    LookupsPrefix(xs, prefix, p);
    assert LookupLike(x, xs[0], p) && LookupLike(xs[0], xs[0], p);
    var c0, cx := xs[0].omc.value, x.omc.value;
    var mergedPrefix := Merged(prefix, p);
    var cR := mergedPrefix.omc.value;
    assert cR.fields == c0.fields && cR.values == c0.values;
    assert Shaped(cR) && Comparable(cR, cx);
    assert OnlyDifferenceAt(cR, cx, p) by {
      if n == 1 {
        assert xs[0].omc.value.values[p] != xs[1].omc.value.values[p];
      } else {
        assert cR.mode == MultiValue(p, KeyValues(prefix, p));
        forall j | 0 <= j < n ensures KeyValues(prefix, p)[j] != cx.values[p] {
          assert prefix[j] == xs[j];
        }
      }
      forall i | 0 <= i < |c0.fields| && i != p ensures !Differs(cR, cx, i) {
        assert cx.values[i] == c0.values[i];
      }
    }
    var joined := if n == 1 then c0.(mode := MultiValue(p, [c0.values[p], cx.values[p]]))
                  else c0.(mode := MultiValue(p, KeyValues(prefix, p) + [cx.values[p]]));
    assert JoinWith(cR, cx) == Some(joined);
    assert KeyValues(xs, p) == joined.mode.valueList;
  }

  /** With one bucket holding the merge of the earlier lookups, the next lookup joins into it. */
  lemma OptimizedAbsorbs<V>(prev: PassState<V>, g: PassState<V>, xs: seq<Select<V>>, p: nat)
    requires Lookups(xs, p) && |xs| >= 2
    requires Lookups(xs[..|xs| - 1], p) && Ready(xs[|xs| - 1])
    requires RepsReady(prev.buckets) && |prev.buckets| == 1 && prev.buckets[0].rep == Merged(xs[..|xs| - 1], p)
    requires g == Insert(OptimizedAppend, prev, xs[|xs| - 1])
    ensures |g.buckets| == 1 && g.buckets[0].rep == Merged(xs, p)
  {
    JoinIntoMerged(xs, p);
    assert Join(OptimizedAppend, prev.buckets[0].rep, xs[|xs| - 1]) == Some(Merged(xs, p));
  }

  /** The first input starts a bucket of its own, unchanged. */
  lemma FirstInsert<V>(m: JoinMethod, g: PassState<V>, x: Select<V>)
    requires g.buckets == [] && Ready(x)
    ensures Insert(m, g, x).buckets == [Bucket(x, |g.owner|)]
  {
  }

  /** The comparator pass over lookups on one key position ends in a single bucket holding their merge. */
  lemma {:induction false} OptimizedPassMerges<V>(xs: seq<Select<V>>, p: nat)
    requires Lookups(xs, p)
    ensures AllReady(xs)
    ensures |Group(OptimizedAppend, xs).buckets| == 1 && Group(OptimizedAppend, xs).buckets[0].rep == Merged(xs, p)
    decreases |xs|
  {
    if |xs| == 1 {
      OptimizedPassFirst(xs, p);
    } else {
      JoinIntoMerged(xs, p);
      OptimizedPassMerges(xs[..|xs| - 1], p);
      OptimizedPassNext(xs, p);
    }
  }

  lemma OptimizedPassFirst<V>(xs: seq<Select<V>>, p: nat)
    requires Lookups(xs, p) && |xs| == 1
    ensures AllReady(xs)
    ensures |Group(OptimizedAppend, xs).buckets| == 1 && Group(OptimizedAppend, xs).buckets[0].rep == Merged(xs, p)
  {
    LookupsReady(xs, p);
    GroupUnfold(OptimizedAppend, xs);
    FirstInsert(OptimizedAppend, Group(OptimizedAppend, xs[..0]), xs[0]);
  }

  lemma OptimizedPassNext<V>(xs: seq<Select<V>>, p: nat)
    requires Lookups(xs, p) && |xs| >= 2
    requires Lookups(xs[..|xs| - 1], p) && AllReady(xs[..|xs| - 1])
    requires |Group(OptimizedAppend, xs[..|xs| - 1]).buckets| == 1
    requires Group(OptimizedAppend, xs[..|xs| - 1]).buckets[0].rep == Merged(xs[..|xs| - 1], p)
    ensures AllReady(xs)
    ensures |Group(OptimizedAppend, xs).buckets| == 1 && Group(OptimizedAppend, xs).buckets[0].rep == Merged(xs, p)
  {
    LookupsReady(xs, p);
    GroupUnfold(OptimizedAppend, xs);
    JoinIntoMerged(xs, p);
    OptimizedAbsorbs(Group(OptimizedAppend, xs[..|xs| - 1]), Group(OptimizedAppend, xs), xs, p);
  }

  /**
   * `groupSelectStep` with the comparator join folds two or more lookups that
   * differ only in the value of field `p` into one select: the first lookup,
   * without manual filter, whose comparator has an IN-list at `p` of every key
   * value in input order.
   */
  lemma GroupSelectStepInList<V>(xs: seq<Select<V>>, p: nat)
    requires Lookups(xs, p) && |xs| >= 2
    ensures AllReady(xs)
    ensures var c0 := xs[0].omc.value;
      GroupSelectStep(xs, OptimizedAppend) ==
        [xs[0].(omc := Some(c0.(mode := MultiValue(p, KeyValues(xs, p)))), filter := None)]
    ensures var r := GroupSelectStep(xs, OptimizedAppend)[0];
      GetPartialFilter(r).And? && GetPartialFilter(r).args[p] == IsIn(xs[0].omc.value.fields[p], KeyValues(xs, p))
  {
    OptimizedPassMerges(xs, p);
    var r := GroupSelectStep(xs, OptimizedAppend);
    assert r == [Merged(xs, p)];
  }

  /** `groupSelect` over optimised lookups that differ only in the value of field `p` returns that one IN-list select. */
  lemma GroupSelectInList<V>(xs: seq<Select<V>>, p: nat)
    requires Lookups(xs, p) && |xs| >= 2
    requires forall j :: 0 <= j < |xs| ==> xs[j].isOptimized
    ensures AllReady(xs)
    ensures GroupSelect(xs) == GroupSelectStep(xs, OptimizedAppend)
  {
    LookupsReady(xs, p);
    WithFlagAll(xs, true);
    GroupSelectStepInList(xs, p);
    var stage1 := GroupSelectStep(xs, OptimizedAppend);
    assert SecondStageInput(xs) == stage1 + [];
    assert stage1 + [] == stage1;
    AppendStepDistinctTargets(stage1);
  }
}

=== FILE: selects.dfy ===
/**
 * A planned select: a table, a destination alias, an optional static filter and
 * a filter source, which is either a manual filter or an optimised comparator.
 * The two append operations fold another select's filter into this one.
 */
module Selects {
  import opened Wrappers
  import opened Expressions
  import opened Comparators

  /**
   * `tableName` and `alias` are `None` until `From` / `IntoTable` bind them.
   * `isOptimized` says whether the select takes part in comparator merging.
   */
  datatype Select<V> = Select(
    tableName: Option<string>,
    alias: Option<string>,
    staticF: Option<Expr<V>>,
    filter: Option<Expr<V>>,
    omc: Option<OptimizedMultiCompare<V>>,
    isOptimized: bool)

  /** A select as the constructor leaves it: unbound, without filters, not optimised. */
  function NewSelect<V(==)>(): Select<V> {
    Select(None, None, None, None, None, false)
  }

  /** The select has something to filter with (its partial filter is not null). */
  predicate HasSource<V(==)>(s: Select<V>) {
    s.filter.Some? || s.omc.Some?
  }

  /** An attached comparator has one value per field. */
  predicate OmcShaped<V(==)>(s: Select<V>) {
    s.omc.Some? ==> Shaped(s.omc.value)
  }

  /** What the append operations need of a select. */
  predicate Ready<V(==)>(s: Select<V>) {
    HasSource(s) && OmcShaped(s)
  }

  /** An optimised select whose comparator is its only filter source. */
  predicate Pure<V(==)>(s: Select<V>) {
    s.filter.None? && s.omc.Some?
  }

  /** Everything a fold keeps of its receiver: the target table, the alias and the static filter. */
  predicate Keeps<V(==)>(r: Select<V>, s: Select<V>) {
    r.tableName == s.tableName && r.alias == s.alias && r.staticF == s.staticF
  }

  /** The filter without the static part: the manual filter if set, else the comparator's. */
  function GetPartialFilter<V(==)>(s: Select<V>): Expr<V>
    requires Ready(s)
  {
    if s.filter.Some? then s.filter.value else Comparators.GetFilter(s.omc.value)
  }

  /** The rows the select fetches, ignoring its static filter. */
  predicate Matches<V(==)>(s: Select<V>, row: Row<V>, manual: ManualMeaning<V>)
    requires Ready(s)
  {
    Eval(GetPartialFilter(s), row, manual)
  }

  /** A select driven by its comparator fetches exactly the rows whose projection the comparator admits. */
  lemma PureMatchesAdmitted<V>(s: Select<V>, row: Row<V>, manual: ManualMeaning<V>)
    requires Ready(s) && Pure(s)
    ensures Matches(s, row, manual) <==> Admits(s.omc.value, Project(row, s.omc.value.fields))
  {
    FilterMeaning(s.omc.value, row, manual);
  }

  /** The overall filter: the static filter, when set, in conjunction with the partial filter. */
  function GetFilter<V(==)>(s: Select<V>): (r: Expr<V>)
    requires Ready(s)
    ensures s.staticF.None? ==> r == GetPartialFilter(s)
  {
    if s.staticF.Some? then And([s.staticF.value, GetPartialFilter(s)]) else GetPartialFilter(s)
  }

  /** A row passes the overall filter iff it passes the static filter, when there is one, and the partial filter. */
  lemma GetFilterMeaning<V>(s: Select<V>, row: Row<V>, manual: ManualMeaning<V>)
    requires Ready(s)
    ensures Eval(GetFilter(s), row, manual) <==>
              (s.staticF.Some? ==> Eval(s.staticF.value, row, manual)) && Matches(s, row, manual)
  {
    if s.staticF.Some? {
      var args := GetFilter(s).args;
      assert Eval(GetFilter(s), row, manual) <==> Eval(args[0], row, manual) && Eval(args[1], row, manual);
    }
  }

  /** Binds the table; the alias defaults to the table name when not yet set. */
  function From<V(==)>(s: Select<V>, tableName: string): (r: Select<V>)
    ensures r.tableName == Some(tableName)
    ensures s.alias.Some? ==> r.alias == s.alias
    ensures s.alias.None? ==> r.alias == Some(tableName)
    ensures r.(tableName := s.tableName, alias := s.alias) == s
  {
    var alias := if s.alias.None? then Some(tableName) else s.alias;
    s.(tableName := Some(tableName), alias := alias)
  }

  /** Sets the destination alias. */
  function IntoTable<V(==)>(s: Select<V>, alias: string): (r: Select<V>)
    ensures r.alias == Some(alias)
    ensures r.(alias := s.alias) == s
  {
    s.(alias := Some(alias))
  }

  /** Sets a manual filter, which overrides any comparator, and leaves comparator merging. */
  function Where<V(==)>(s: Select<V>, f: Expr<V>): (r: Select<V>)
    ensures Ready(r) <==> OmcShaped(s)
    ensures OmcShaped(s) ==> GetPartialFilter(r) == f
    ensures !r.isOptimized
    ensures r.(filter := s.filter, isOptimized := s.isOptimized) == s
  {
    s.(filter := Some(f), isOptimized := false)
  }

  /** Sets the static filter, which no append operation looks at. */
  function StaticFilter<V(==)>(s: Select<V>, f: Expr<V>): (r: Select<V>)
    ensures Ready(s) ==> Ready(r) && GetPartialFilter(r) == GetPartialFilter(s)
    ensures r.staticF == Some(f)
    ensures r.(staticF := s.staticF) == s
  {
    s.(staticF := Some(f))
  }

  /** Attaches a fresh optimised comparator and marks the select optimised; a manual filter stays. */
  function SetMultiCompare<V(==)>(s: Select<V>, mc: MultiCompare<V>): (r: Select<V>)
    ensures r.isOptimized && r.omc.Some? && r.omc.value.mode.Simple?
    ensures r.omc.value.fields == mc.fields && r.omc.value.values == mc.values
    ensures |mc.fields| == |mc.values| ==> Ready(r)
    ensures r.(omc := s.omc, isOptimized := s.isOptimized) == s
  {
    s.(omc := Some(FromMultiCompare(mc)), isOptimized := true)
  }

  /** A select given only a comparator fetches exactly the row tuple of that comparator. */
  lemma SetMultiCompareMatchesOneTuple<V>(s: Select<V>, mc: MultiCompare<V>, row: Row<V>, manual: ManualMeaning<V>)
    requires |mc.fields| == |mc.values| && s.filter.None?
    ensures Matches(SetMultiCompare(s, mc), row, manual) <==> Project(row, mc.fields) == mc.values
  {
    var r := SetMultiCompare(s, mc);
    PureMatchesAdmitted(r, row, manual);
    SimpleAdmitsOnlyItsValues(r.omc.value, Project(row, mc.fields));
  }

  /**
   * The usual way a lookup select is built: a fresh select bound to a table, with
   * no alias given, takes the table name as alias; given a comparator, it is
   * optimised, ready, and driven by that comparator alone.
   */
  lemma NewSelectLookup<V>(table: string, mc: MultiCompare<V>)
    requires |mc.fields| == |mc.values|
    ensures var s := SetMultiCompare(From(NewSelect(), table), mc);
      && s.tableName == Some(table) && s.alias == Some(table)
      && s.staticF.None? && s.isOptimized
      && Ready(s) && Pure(s)
  {
  }

  /** Same table and same alias. */
  predicate CanAppendTo<V(==)>(s: Select<V>, other: Select<V>) {
    s.tableName == other.tableName && s.alias == other.alias
  }

  /** Sharing a target is an equivalence, so the selects of one table and alias all append to each other. */
  lemma CanAppendToEquivalence<V>(a: Select<V>, b: Select<V>, c: Select<V>)
    ensures CanAppendTo(a, a)
    ensures CanAppendTo(a, b) ==> CanAppendTo(b, a)
    ensures CanAppendTo(a, b) && CanAppendTo(b, c) ==> CanAppendTo(a, c)
  {
  }

  /**
   * Merges `other` into `s` through the comparator join. `None` is the source's
   * `false`: different target, a missing comparator, or a join refused.
   */
  function OptimizedAppendTo<V(==)>(s: Select<V>, other: Select<V>): (r: Option<Select<V>>)
    requires OmcShaped(s) && OmcShaped(other)
    ensures r.None? <==>
              || !CanAppendTo(s, other)
              || s.omc.None? || other.omc.None?
              || JoinWith(s.omc.value, other.omc.value).None?
    ensures r.Some? ==>
              && r.value.filter.None?
              && r.value.omc == JoinWith(s.omc.value, other.omc.value)
              && Keeps(r.value, s)
              && r.value.isOptimized == s.isOptimized
              && Ready(r.value)
  {
    if !CanAppendTo(s, other) then None
    else if s.omc.None? || other.omc.None? then None
    else
      match JoinWith(s.omc.value, other.omc.value)
      case None => None
      case Some(c) => Some(s.(omc := Some(c), filter := None))
  }

  /**
   * For selects driven by their comparators alone, a successful optimised
   * append fetches exactly the rows of the two selects together.
   */
  lemma OptimizedAppendSound<V>(s: Select<V>, other: Select<V>, row: Row<V>, manual: ManualMeaning<V>)
    requires Ready(s) && Ready(other) && Pure(s) && Pure(other)
    requires OptimizedAppendTo(s, other).Some?
    ensures Pure(OptimizedAppendTo(s, other).value)
    ensures Matches(OptimizedAppendTo(s, other).value, row, manual) <==>
              Matches(s, row, manual) || Matches(other, row, manual)
  {
    var r := OptimizedAppendTo(s, other).value;
    var c, o := s.omc.value, other.omc.value;
    var t := Project(row, c.fields);
    PureMatchesAdmitted(r, row, manual);
    PureMatchesAdmitted(s, row, manual);
    PureMatchesAdmitted(other, row, manual);
    JoinSound(c, o, t);
    SimpleAdmitsOnlyItsValues(o, t);
  }

  /**
   * Merges `other` into `s` by OR-ing their partial filters; fails only when the
   * targets differ. A universally true side wins, identical filters are left
   * alone, and any change drops the comparator.
   */
  function AppendTo<V(==)>(s: Select<V>, other: Select<V>): (r: Option<Select<V>>)
    requires Ready(s) && Ready(other)
    ensures r.None? <==> !CanAppendTo(s, other)
    ensures r.Some? ==> Keeps(r.value, s) && Ready(r.value)
    ensures r.Some? && (IsTrue(GetPartialFilter(s)) || IsTrue(GetPartialFilter(other))) ==>
              IsTrue(GetPartialFilter(r.value))
    ensures r.Some? && (IsTrue(GetPartialFilter(s)) || GetPartialFilter(s) == GetPartialFilter(other)) ==>
              r.value == s
    ensures r.Some? && r.value != s ==> !r.value.isOptimized && r.value.omc.None?
    ensures r.Some? && !IsTrue(GetPartialFilter(s)) && IsTrue(GetPartialFilter(other)) ==>
              r.value == s.(omc := None, isOptimized := false, filter := Some(GetPartialFilter(other)))
    ensures r.Some? && !IsTrue(GetPartialFilter(s)) && !IsTrue(GetPartialFilter(other))
            && GetPartialFilter(s) != GetPartialFilter(other) ==>
              r.value == s.(filter := Some(Or(GetPartialFilter(s), GetPartialFilter(other))), omc := None, isOptimized := false)
  {
    if !CanAppendTo(s, other) then None
    else if IsTrue(GetPartialFilter(s)) then Some(s)
    else if IsTrue(GetPartialFilter(other)) then
      Some(s.(omc := None, isOptimized := false, filter := Some(GetPartialFilter(other))))
    else if GetPartialFilter(s) == GetPartialFilter(other) then Some(s)
    else
      Some(s.(filter := Some(Or(GetPartialFilter(s), GetPartialFilter(other))), omc := None, isOptimized := false))
  }

  /** A successful OR-append fetches exactly the rows of the two selects together. */
  lemma AppendSound<V>(s: Select<V>, other: Select<V>, row: Row<V>, manual: ManualMeaning<V>)
    requires Ready(s) && Ready(other)
    requires AppendTo(s, other).Some?
    ensures Matches(AppendTo(s, other).value, row, manual) <==> Matches(s, row, manual) || Matches(other, row, manual)
  {
  }
}

=== FILE: wrappers.dfy ===
/** The optional-value datatype used in place of JavaScript's `null`. */
module Wrappers {

  /** `None` stands for a `null` (or absent) property, `Some(v)` for a set one. */
  datatype Option<+T> = None | Some(value: T)
}
